=== FILE: README.md ===
# Ballerina JVM runtime bookkeeping, modelled in Dafny

This project models the deterministic bookkeeping of the Ballerina JVM runtime and of one
compiler component:

- how the native value API (`BValueCreator`) builds object values. It interleaves the field
  values with `true` markers. When a current strand exists, the nested creation call runs
  with the strand made runnable and not blocked on an extern. The strand's state and its
  `blockedOnExtern` flag are restored on every exit path.
- how `BValueCreator` populates record values, builds XML sequences and creates function
  pointers.
- how `ErrorUtils` turns Java throwables and failed conversions into error values. Some
  helpers return the error; others always throw it.
- how `AnnotationUtils` attaches annotations from the global annotation map to types,
  object methods, service types and function pointers.
- what the type descriptors `BRecordType`, `BTypedescType` and `BAnnotatableType` report.
- how the per-project package cache (`ProjectPackageCache`) answers requests for the
  current package and hands everything else to the global cache.
- the byte codes of the BIR instruction kinds (`InstructionKind`). The Java enum has no
  decoder; `InstructionKinds.Decode` is a decoding table written for the model. It is the
  reference inverse through which the codes are proved distinct.

Everything is modelled functionally:

- Java `null` becomes `Option` or the `Nil` value.
- A thrown exception becomes a `Result` failure, or `Raised.Thrown` for error values.
- An in-place mutation returns the updated value.
- A strand is an immutable record holding its state and its `blockedOnExtern` flag.
- The nested object-creation call is a parameter. It yields an outcome (object or
  throwable) and a transformation of the strand it runs on.
- The generated value creator, `FPValue.call`, `TypeChecker.getType`, the empty value of a
  field's type and the global package cache are uninterpreted parameters.

Modules follow the source files: `BValueCreator`, `ErrorUtils`, `AnnotationUtils`,
`Types` (with `BAnnotatableType`), `RecordTypes`, `TypedescTypes`, `PackageCache` and
`InstructionKinds`. `Wrappers`, `RuntimeValues`, `Scheduling` and `FunctionPointers` hold
the shared data model.

Modelling choices:

- The strand states are modelled as runnable, yielded, blocked and done; the runtime's
  `State` enum is not modelled.
- A Java throwable records whether it is an `Exception`. The strand lookup of
  `BValueCreator` catches exactly those and treats them as "no strand"; any other
  throwable propagates.
- Java's 32-bit `int` arithmetic is written out where it can overflow: doubling the number
  of object fields wraps around, and a negative array length throws.
- The reason of an error value is a predefined reason of `BallerinaErrorReasons` or a
  runtime string. The texts of the predefined reasons are a parameter, so properties that
  compare reason strings assume those texts are pairwise distinct.

## Model

| member | source | states |
|---|---|---|
| BValueCreator.InterleaveFields | bvm/ballerina-runtime/src/main/java/io/ballerina/jvm/api/BValueCreator.java:431-443 | the field array has length 2·n; position 2i holds the i-th field value and position 2i+1 holds `true` |
| BValueCreator.CreateObjectValue | bvm/ballerina-runtime/src/main/java/io/ballerina/jvm/api/BValueCreator.java:427-462 | when the strand lookup throws something other than an exception, that throwable propagates and the nested call is not made. When 2·n overflows a 32-bit `int` (n ≥ 2^30 fields), the array allocation throws NegativeArraySizeException before the call and no strand is touched. Otherwise the nested call gets the interleaved fields. With a strand, it gets that strand's scheduler and the strand runnable and not blocked on an extern. Afterwards the strand's state and flag equal their values before the call, whether the call returned or threw. Without a strand, the scheduler is null and no strand is touched. The outcome is the nested call's |
| BValueCreator.GetStrand | bvm/ballerina-runtime/src/main/java/io/ballerina/jvm/api/BValueCreator.java:464-471 | a successful lookup is passed through. A lookup that throws an exception yields "no strand"; any other throwable propagates |
| BValueCreator.CaughtLookupActsAsNoStrand | bvm/ballerina-runtime/src/main/java/io/ballerina/jvm/api/BValueCreator.java:464-471 | a failed lookup gives the same answer as a lookup that found no strand exactly when it threw an exception; otherwise the failure itself comes back. `CreateObjectValue` depends on the lookup only through `GetStrand`, so a caught failure behaves like "no strand" |
| BValueCreator.FieldArrayLengthOverflows | bvm/ballerina-runtime/src/main/java/io/ballerina/jvm/api/BValueCreator.java:431 | for a field count n below 2^31, the 32-bit value of 2·n is negative exactly when n ≥ 2^30, and equals 2·n below that |
| BValueCreator.PopulateRecord | bvm/ballerina-runtime/src/main/java/io/ballerina/jvm/api/BValueCreator.java:403-417 | a map whose type is not a record type throws ClassCastException. Otherwise the result is a fresh map: the i-th declared field holds the i-th value, with Java strings converted. A field is omitted exactly when it is optional and its value is null. Fewer values than fields throw an index error |
| BValueCreator.PopulateRecordFromMap | bvm/ballerina-runtime/src/main/java/io/ballerina/jvm/api/BValueCreator.java:382-394 | every entry of the value map is stored under its runtime-string key, converted. The record's other entries are kept. No other key appears |
| BValueCreator.CreateXmlSequence | bvm/ballerina-runtime/src/main/java/io/ballerina/jvm/api/BValueCreator.java:321-327 | the children equal the array's values, in the same order and with the same length. The cast throws exactly when some value is neither XML nor null |
| BValueCreator.CreateFPValue | bvm/ballerina-runtime/src/main/java/io/ballerina/jvm/api/BValueCreator.java:209-223 | a created function pointer keeps its function, type and strand name, and is never concurrent |
| RuntimeValues.ToRuntimeNormalises | bvm/ballerina-runtime/src/main/java/io/ballerina/jvm/api/BValueCreator.java:385-391 | converting a stored value leaves no Java string behind; it is idempotent and changes exactly the Java strings |
| RuntimeValues.ToRuntime | bvm/ballerina-runtime/src/main/java/io/ballerina/jvm/api/BValueCreator.java:413-414 | a Java string is stored as a runtime string with the same characters; every other value is stored as it is |
| Scheduling.PrepareNested | bvm/ballerina-runtime/src/main/java/io/ballerina/jvm/api/BValueCreator.java:446-452 | the strand the nested call sees is runnable and not blocked on an extern, and it keeps its identity and scheduler |
| Scheduling.Restore | bvm/ballerina-runtime/src/main/java/io/ballerina/jvm/api/BValueCreator.java:455-460 | after restoring, the saved state and flag are back |
| Scheduling.RestoreAfterAnyNestedCall | bvm/ballerina-runtime/src/main/java/io/ballerina/jvm/api/BValueCreator.java:446-460 | whatever the nested call does to the strand, save, prepare and restore give back the state and flag from before |
| ErrorUtils.CreateInteropError | bvm/ballerina-runtime/src/main/java/io/ballerina/jvm/internal/ErrorUtils.java:56-67 | reason is the throwable's class name. The detail holds `message` iff the throwable has a message, and `cause` iff it has a cause. The cause error's reason is the cause's class name. No other key appears |
| ErrorUtils.InteropErrorOfBareThrowable | bvm/ballerina-runtime/src/main/java/io/ballerina/jvm/internal/ErrorUtils.java:56-67 | a throwable with neither message nor cause gives an empty detail map |
| ErrorUtils.HandleResourceError | bvm/ballerina-runtime/src/main/java/io/ballerina/jvm/internal/ErrorUtils.java:69-74 | an error value is thrown; any other value is returned unchanged |
| ErrorUtils.HandleResourceErrorIdempotent | bvm/ballerina-runtime/src/main/java/io/ballerina/jvm/internal/ErrorUtils.java:69-74 | feeding a returned value back in returns it again |
| ErrorUtils.TrapError | bvm/ballerina-runtime/src/main/java/io/ballerina/jvm/internal/ErrorUtils.java:76-84 | whatever the throwable, the reason is stack overflow and the stack trace is the throwable's |
| ErrorUtils.CreateCancelledFutureError | bvm/ballerina-runtime/src/main/java/io/ballerina/jvm/internal/ErrorUtils.java:86-88 | the reason is the future-cancelled reason |
| ErrorUtils.CreateNullReferenceError | bvm/ballerina-runtime/src/main/java/io/ballerina/jvm/internal/ErrorUtils.java:121-123 | the reason is `NullReferenceException` |
| ErrorUtils.ErrorReasonsDistinguishOrigin | bvm/ballerina-runtime/src/main/java/io/ballerina/jvm/internal/ErrorUtils.java:56-123 | when the predefined reason texts are pairwise distinct, and neither `NullReferenceException` nor the throwable's class name is one of them or equal to the other, then trapped, cancelled, null-reference and interop errors have pairwise different reason strings |
| ErrorUtils.CreateConversionError | bvm/ballerina-runtime/src/main/java/io/ballerina/jvm/internal/ErrorUtils.java:90-94 | returns, without throwing, a conversion error naming the input's type and the target type |
| ErrorUtils.CreateTypeCastError | bvm/ballerina-runtime/src/main/java/io/ballerina/jvm/internal/ErrorUtils.java:96-101 | never returns; throws a type cast error naming the source type and the target type |
| ErrorUtils.CreateBToJTypeCastError | bvm/ballerina-runtime/src/main/java/io/ballerina/jvm/internal/ErrorUtils.java:103-107 | never returns; throws a type cast error naming the source type and the Java target type |
| ErrorUtils.CreateNumericConversionError | bvm/ballerina-runtime/src/main/java/io/ballerina/jvm/internal/ErrorUtils.java:109-114 | never returns; it throws exactly what the typed overload throws when given the value's own type |
| ErrorUtils.CreateNumericConversionErrorOfType | bvm/ballerina-runtime/src/main/java/io/ballerina/jvm/internal/ErrorUtils.java:116-119 | never returns; throws a number conversion error naming the input type, the input value and the target type |
| ErrorUtils.ConversionErrorsByOrigin | bvm/ballerina-runtime/src/main/java/io/ballerina/jvm/internal/ErrorUtils.java:90-119 | the conversion helper returns its error, while the cast, Java cast and both numeric helpers throw. With distinct predefined texts, conversion, cast and numeric errors have pairwise different reason strings. The Java cast error has the cast reason but a different detail |
| AnnotationUtils.AttachToFunctions | bvm/ballerina-runtime/src/main/java/io/ballerina/jvm/AnnotationUtils.java:60-66 | each method whose key is present receives that key's annotations. A method whose key is absent is unchanged |
| AnnotationUtils.ProcessAnnotations | bvm/ballerina-runtime/src/main/java/io/ballerina/jvm/AnnotationUtils.java:45-67 | a non-annotatable type is unchanged. Only the annotations and the kind may change. The type's annotations are replaced iff its key is present. A non-object type keeps its kind; an object type changes only its methods, which are visited. Name, key and tag never change |
| AnnotationUtils.ProcessAnnotationsIdempotent | bvm/ballerina-runtime/src/main/java/io/ballerina/jvm/AnnotationUtils.java:45-67 | processing with the same global map twice is the same as processing once |
| AnnotationUtils.ProcessAnnotationsWithEmptyMap | bvm/ballerina-runtime/src/main/java/io/ballerina/jvm/AnnotationUtils.java:45-67 | with no keys present, nothing changes |
| AnnotationUtils.EvaluateForFunctions | bvm/ballerina-runtime/src/main/java/io/ballerina/jvm/AnnotationUtils.java:76-83 | each method whose key is present gets the result of calling the stored function pointer. The others are unchanged |
| AnnotationUtils.ProcessServiceAnnotations | bvm/ballerina-runtime/src/main/java/io/ballerina/jvm/AnnotationUtils.java:69-84 | the service type and each method get the stored pointer's call result only when their key is present |
| AnnotationUtils.ProcessFPValueAnnotations | bvm/ballerina-runtime/src/main/java/io/ballerina/jvm/AnnotationUtils.java:93-99 | only the annotations of the pointer's type may change; the type's package and name, and the pointer's function and strand name, are kept. When the name is a key of the global map, the type's annotation map becomes exactly the map stored under it. Otherwise the pointer is unchanged |
| AnnotationUtils.ProcessFPValueAnnotationsIdempotent | bvm/ballerina-runtime/src/main/java/io/ballerina/jvm/AnnotationUtils.java:93-99 | processing twice with the same global map is processing once; with an empty global map nothing changes |
| AnnotationUtils.GetStrandName | bvm/ballerina-runtime/src/main/java/io/ballerina/jvm/AnnotationUtils.java:118-123 | the pointer's strand name when it is set, otherwise the default name |
| AnnotationUtils.IsConcurrent | bvm/ballerina-runtime/src/main/java/io/ballerina/jvm/AnnotationUtils.java:107-109 | reads the pointer's concurrency flag; `CreatedPointerStrandName` shows that a created pointer is not concurrent |
| AnnotationUtils.CreatedPointerStrandName | bvm/ballerina-runtime/src/main/java/io/ballerina/jvm/AnnotationUtils.java:107-123 | a created pointer is not concurrent, and its strand name is the one given or else the default |
| Types.NewAnnotatable | bvm/ballerina-runtime/src/main/java/io/ballerina/jvm/types/BAnnotatableType.java:35 | a fresh type answers null for every annotation key |
| Types.SetAnnotations | bvm/ballerina-runtime/src/main/java/io/ballerina/jvm/types/BAnnotatableType.java:41-43 | every later lookup reads the new map; name, key and tag are kept |
| Types.AbsentKeyYieldsNil | bvm/ballerina-runtime/src/main/java/io/ballerina/jvm/types/BAnnotatableType.java:45-47 | looking up an absent key yields null |
| Types.GetAnnotation | bvm/ballerina-runtime/src/main/java/io/ballerina/jvm/types/BAnnotatableType.java:45-47 | the value stored under the key, or null when the key is absent; `NewAnnotatable`, `SetAnnotations` and `AbsentKeyYieldsNil` state what it answers |
| Types.SetAnnotationsLastWins | bvm/ballerina-runtime/src/main/java/io/ballerina/jvm/types/BAnnotatableType.java:41-47 | setting twice is the same as setting the second map |
| Types.GetQualifiedAnnotation | bvm/ballerina-runtime/src/main/java/io/ballerina/jvm/types/BAnnotatableType.java:49-51 | the (pkg, name) lookup equals the lookup of key `pkg:name` |
| Types.QualifiedKeyInjective | bvm/ballerina-runtime/src/main/java/io/ballerina/jvm/types/BAnnotatableType.java:49-51 | when package names hold no colon, the key `pkg:name` determines both package and name |
| Types.QualifiedKeyAmbiguousWithColon | bvm/ballerina-runtime/src/main/java/io/ballerina/jvm/types/BAnnotatableType.java:49-51 | with a colon in the package name, two different pairs can share a key |
| RecordTypes.NewRecordType | bvm/ballerina-runtime/src/main/java/io/ballerina/jvm/types/BRecordType.java:57-62 | readonly iff the READONLY flag is given; name, package, type flags and `sealed` are stored as given; no immutable type is set yet; there are no fields or rest type; no annotation is present |
| RecordTypes.NewRecordTypeWithFields | bvm/ballerina-runtime/src/main/java/io/ballerina/jvm/types/BRecordType.java:75-82 | readonly iff the READONLY flag is given; name, package, fields, rest type, type flags and `sealed` are stored as given; no immutable type is set yet; no annotation is present |
| RecordTypes.SetImmutableType | bvm/ballerina-runtime/src/main/java/io/ballerina/jvm/types/BRecordType.java:132-135 | the getter then returns the value set, and nothing else about the type changes: name, package, annotations, fields, flags and readonly are as before |
| RecordTypes.ImmutableTypeLastWriteWins | bvm/ballerina-runtime/src/main/java/io/ballerina/jvm/types/BRecordType.java:127-135 | the getter returns the last value set |
| RecordTypes.ReadOnlyNeverChanges | bvm/ballerina-runtime/src/main/java/io/ballerina/jvm/types/BRecordType.java:122-135 | no later mutator changes `isReadOnly` |
| RecordTypes.EmptyEntries | bvm/ballerina-runtime/src/main/java/io/ballerina/jvm/types/BRecordType.java:93-98 | putting the non-optional fields in order gives exactly their keys, each bound to its field type's empty value |
| RecordTypes.GetEmptyValue | bvm/ballerina-runtime/src/main/java/io/ballerina/jvm/types/BRecordType.java:91-100 | the empty value has exactly the keys of the non-optional fields, each bound to that field type's empty value |
| RecordTypes.GetTag | bvm/ballerina-runtime/src/main/java/io/ballerina/jvm/types/BRecordType.java:102-105 | a record type always reports the record tag |
| RecordTypes.GetAnnotationKey | bvm/ballerina-runtime/src/main/java/io/ballerina/jvm/types/BRecordType.java:107-110 | the annotation key of a record type is its type name |
| RecordTypes.IsAnydata | bvm/ballerina-runtime/src/main/java/io/ballerina/jvm/types/BRecordType.java:112-115 | reads the ANYDATA type flag; `FlagPredicates` ties it to the flags given to either constructor |
| RecordTypes.IsPureType | bvm/ballerina-runtime/src/main/java/io/ballerina/jvm/types/BRecordType.java:117-120 | reads the PURETYPE type flag; `FlagPredicates` ties it to the flags given to either constructor |
| RecordTypes.IsReadOnly | bvm/ballerina-runtime/src/main/java/io/ballerina/jvm/types/BRecordType.java:122-125 | reads the readonly bit fixed by the constructor; `NewRecordType` and `ReadOnlyNeverChanges` say when it holds |
| RecordTypes.GetImmutableType | bvm/ballerina-runtime/src/main/java/io/ballerina/jvm/types/BRecordType.java:127-130 | the immutable type last set; `NewRecordType` leaves it unset and `SetImmutableType` sets it |
| RecordTypes.FlagPredicates | bvm/ballerina-runtime/src/main/java/io/ballerina/jvm/types/BRecordType.java:57-120 | for a record type built by either constructor, `isAnydata` and `isPureType` hold exactly when the ANYDATA and PURETYPE type flags were given |
| TypedescTypes.NewNamedTypedesc | bvm/ballerina-runtime/src/main/java/io/ballerina/jvm/types/BTypedescType.java:38-40 | the name-only constructor leaves the constraint unset |
| TypedescTypes.NewTypedescOf | bvm/ballerina-runtime/src/main/java/io/ballerina/jvm/types/BTypedescType.java:42-45 | the constraint constructor stores the constraint, has the built-in name and no package |
| TypedescTypes.GetZeroValue | bvm/ballerina-runtime/src/main/java/io/ballerina/jvm/types/BTypedescType.java:47-50 | the zero value is a typedesc value describing nil |
| TypedescTypes.GetEmptyValue | bvm/ballerina-runtime/src/main/java/io/ballerina/jvm/types/BTypedescType.java:52-55 | the empty value is the zero value, a typedesc value describing nil |
| TypedescTypes.GetTag | bvm/ballerina-runtime/src/main/java/io/ballerina/jvm/types/BTypedescType.java:57-60 | always the typedesc tag |
| TypedescTypes.GetConstraint | bvm/ballerina-runtime/src/main/java/io/ballerina/jvm/types/BTypedescType.java:73-75 | the stored constraint; `NewNamedTypedesc` leaves it unset and `NewTypedescOf` sets it |
| TypedescTypes.IsReadOnly | bvm/ballerina-runtime/src/main/java/io/ballerina/jvm/types/BTypedescType.java:77-80 | every typedesc type is read-only |
| TypedescTypes.TypedescConstants | bvm/ballerina-runtime/src/main/java/io/ballerina/jvm/types/BTypedescType.java:52-80 | the empty value equals the zero value; the tag is always the typedesc tag; every typedesc type is read-only |
| TypedescTypes.Equals | bvm/ballerina-runtime/src/main/java/io/ballerina/jvm/types/BTypedescType.java:62-71 | true for the same object. For any other typedesc, it compares constraints and throws NullPointerException when this constraint is unset. False for any non-typedesc. The only throwable is NullPointerException |
| TypedescTypes.EqualsThrowsOnUnsetConstraint | bvm/ballerina-runtime/src/main/java/io/ballerina/jvm/types/BTypedescType.java:62-71 | two distinct name-only typedesc types make `equals` throw NullPointerException |
| TypedescTypes.EqualsNullSafeRefinesEquals | bvm/ballerina-runtime/src/main/java/io/ballerina/jvm/types/BTypedescType.java:62-71 | where `equals` returns, the null-safe comparison gives the same answer |
| TypedescTypes.EqualsNullSafeIsEquivalence | bvm/ballerina-runtime/src/main/java/io/ballerina/jvm/types/BTypedescType.java:62-71 | the null-safe comparison is reflexive, symmetric and transitive |
| PackageCache.Cache | compiler/ballerina-lang/src/main/java/io/ballerina/projects/internal/environment/ProjectPackageCache.java:45-48 | only the global cache's state changes; the current package is kept |
| PackageCache.GetPackage | compiler/ballerina-lang/src/main/java/io/ballerina/projects/internal/environment/ProjectPackageCache.java:50-57 | the current package's own id yields the current package; any other id gets exactly the global cache's answer |
| PackageCache.GetPackageOrThrow | compiler/ballerina-lang/src/main/java/io/ballerina/projects/internal/environment/ProjectPackageCache.java:59-66 | the same routing as `getPackage`, with the global cache's throwing lookup |
| PackageCache.GetPackageByVersion | compiler/ballerina-lang/src/main/java/io/ballerina/projects/internal/environment/ProjectPackageCache.java:68-73 | always the global cache's answer, even for the current package's coordinates |
| PackageCache.GetPackages | compiler/ballerina-lang/src/main/java/io/ballerina/projects/internal/environment/ProjectPackageCache.java:75-78 | always the global cache's answer |
| PackageCache.IdLookupsRouteAlike | compiler/ballerina-lang/src/main/java/io/ballerina/projects/internal/environment/ProjectPackageCache.java:50-66 | both id lookups answer the current package for its id, and both delegate every other id |
| PackageCache.CurrentPackageShadowsCache | compiler/ballerina-lang/src/main/java/io/ballerina/projects/internal/environment/ProjectPackageCache.java:45-57 | whatever is cached, the current package's id still yields the current package |
| PackageCache.EqualIdOtherObjectGoesGlobal | compiler/ballerina-lang/src/main/java/io/ballerina/projects/internal/environment/ProjectPackageCache.java:80-82 | the test is reference identity: an equal but distinct id object is routed to the global cache |
| InstructionKinds.CodesInGroupRanges | compiler/ballerina-lang/src/main/java/org/wso2/ballerinalang/compiler/bir/model/InstructionKind.java:26-87 | terminating codes are 1..7, non-terminating 20..52, binary operators 61..73 and unary operators 80..81; each code lies in no other group's range |
| InstructionKinds.GetValue | compiler/ballerina-lang/src/main/java/org/wso2/ballerinalang/compiler/bir/model/InstructionKind.java:27-97 | each kind's byte code as listed in the enum; `DecodeGetValue` and `CodesDistinct` are its partners |
| InstructionKinds.Decode | compiler/ballerina-lang/src/main/java/org/wso2/ballerinalang/compiler/bir/model/InstructionKind.java:27-97 | a byte that decodes to a kind is that kind's code |
| InstructionKinds.DecodeGetValue | compiler/ballerina-lang/src/main/java/org/wso2/ballerinalang/compiler/bir/model/InstructionKind.java:27-97 | decoding a kind's byte code gives back that kind |
| InstructionKinds.CodesDistinct | compiler/ballerina-lang/src/main/java/org/wso2/ballerinalang/compiler/bir/model/InstructionKind.java:27-87 | no two kinds share a byte code |
| InstructionKinds.DecodeNoneExactlyForUnusedCodes | compiler/ballerina-lang/src/main/java/org/wso2/ballerinalang/compiler/bir/model/InstructionKind.java:27-87 | a byte decodes to nothing exactly when no kind uses it |

## Findings

| source | as written | input that shows it | evidently intended | confidence | as-written member | corrected member |
|---|---|---|---|---|---|---|
| bvm/ballerina-runtime/src/main/java/io/ballerina/jvm/types/BTypedescType.java:62-71 | `equals` calls `constraint.equals(...)`, but the name-only constructor (lines 38-40) leaves `constraint` null. The counterexample is `TypedescTypes.EqualsThrowsOnUnsetConstraint` | two distinct objects built by `new BTypedescType("typedesc", pkg)`: `a.equals(b)` throws NullPointerException | a null-safe comparison of the constraints, equal when both are unset. `TypedescTypes.EqualsNullSafeIsEquivalence` proves it an equivalence relation | medium; not executed | TypedescTypes.Equals | TypedescTypes.EqualsNullSafe |

## Left out

- The scheduler, strand queues, futures and `wait`: their source is not part of this model.
- Object identity and aliasing: each in-place mutation returns an updated copy. Two holders of the same type object are not kept in sync.
- `ValueCreator.getValueCreator` and `createRecordValue(packageId, recordTypeName)`: this generated code is opaque. The creator is a parameter of `CreateObjectValue`, and the record it makes is the `record` argument of `PopulateRecordFromMap`.
- `BRecordType.getZeroValue` delegates to that same opaque record creator and is not modelled.
- The one-line constructors of `BValueCreator` (arrays, tuples, decimals, streaming JSON, streams, typedesc values, XML items, qualified names, maps) are not modelled. They only call a constructor.
- BValueCreator.PopulateRecord: the record's map is a `map`, so the insertion order of `MapValueImpl` is not modelled. Any checks that `MapValueImpl.put` makes are not modelled either.
- BValueCreator.CreateXmlSequence: the input is what `ArrayValue.getValues()` returns. How that relates to the array's logical length is defined in `ArrayValueImpl`, which is not part of this model.
- BValueCreator.CreateObjectValue: the strand holds only its identity, name, scheduler, state and `blockedOnExtern` flag. The strand states are modelled as runnable, yielded, blocked and done; the runtime's `State` enum is not modelled. `ValueCreator.getValueCreator` failing for an unknown package is not modelled, because the creator is a parameter. The field values are required to number fewer than 2^31, the most a Java array can hold.
- AnnotationUtils.ProcessAnnotations: the unchecked cast of map entries is not modelled. The global annotation map is typed as holding annotation maps.
- AnnotationUtils.ProcessServiceAnnotations: the global map is typed as holding function pointers. The call is a pure parameter, so a panicking call and the order of calls are not modelled.
- A service type reports the service tag and an object type the object tag. `BObjectType` and `BServiceType` are not part of this model.
- The numeric values of `Flags`, `TypeFlags` and `TypeTags` are not modelled: flags are sets of named bits and tags are distinct constructors. The texts of `BallerinaErrorReasons` are a parameter of the lemmas that compare reason strings.
- The text of error messages (`BLangExceptionHelper`) is not modelled. An error records the template and the arguments it was formatted from.
- The detail layout made by `BErrorCreator.createError` is not modelled. An error records the arguments `createError` was given.
- The stack trace that `createError` captures is not modelled. Only a trace set explicitly, as in `trapError`, is modelled.
- RecordTypes.NewRecordType: `BStructureType` is not part of this model. A record type built without fields is modelled with an empty field list.
- TypedescTypes.Equals: `Type.equals` on constraints is equality of type identities. `hashCode` is not modelled.
- The global package cache's own behaviour is not modelled: its operations are parameters over an opaque state.
- InstructionKinds.GetValue: the Java field `value` is neither final nor private, so code in the same package could reassign a kind's byte code. The model fixes each code to the one the enum constant declares; a reassignment is not modelled.
- AnnotationUtils.ProcessFPValueAnnotations: the cast of the pointer's type to `BAnnotatableType` is not modelled. A function pointer's type is modelled as annotatable.

=== FILE: annotation_utils.dfy ===
/** `AnnotationUtils`: attaching the annotations of the global annotation map to types,
    to the methods of object types, to service types and to function pointers. */
module AnnotationUtils {
  import opened Wrappers
  import opened RuntimeValues
  import opened Types
  import opened Scheduling
  import opened FunctionPointers
  import BValueCreator

  /** The global annotation map as `processAnnotations` reads it: keys to annotation maps. */
  type GlobalAnnotations = map<BString, AnnotMap>

  /** The global annotation map as `processServiceAnnotations` reads it: keys to function
      pointers whose call yields the annotation map. */
  type GlobalAnnotationThunks = map<BString, FPValue>

  /** The annotation map the key selects, or the current one when the key is absent. */
  function Selected(global: GlobalAnnotations, key: string, current: AnnotMap): AnnotMap {
    if BString(key) in global then global[BString(key)] else current
  }

  /** Gives every method the annotations stored under its own key; a method whose key is
      absent keeps its annotations. */
  function AttachToFunctions(global: GlobalAnnotations, fs: seq<AttachedFunction>): (r: seq<AttachedFunction>)
    ensures |r| == |fs|
    ensures forall i :: 0 <= i < |fs| ==>
              r[i].funcName == fs[i].funcName && r[i].annotationKey == fs[i].annotationKey
    ensures forall i :: 0 <= i < |fs| && BString(fs[i].annotationKey) in global ==>
              r[i].annotations == global[BString(fs[i].annotationKey)]
    ensures forall i :: 0 <= i < |fs| && BString(fs[i].annotationKey) !in global ==> r[i] == fs[i]
  {
    if |fs| == 0 then []
    else
      [fs[0].(annotations := Selected(global, fs[0].annotationKey, fs[0].annotations))]
      + AttachToFunctions(global, fs[1..])
  }

  /** `processAnnotations`. A type that is not annotatable is returned unchanged. Otherwise
      its annotations become the map under its annotation key when that key is present and
      stay as they were when it is absent; its methods are visited only when its tag is the
      object tag. Nothing but annotations changes. */
  function ProcessAnnotations(global: GlobalAnnotations, t: Type): (r: Type)
    ensures !t.Annotatable? ==> r == t
    ensures t.Annotatable? ==> r.Annotatable?
    ensures t.Annotatable? ==>
              && r.a.typeName == t.a.typeName && r.a.pkg == t.a.pkg
              && AnnotationKey(r.a) == AnnotationKey(t.a) && Tag(r.a) == Tag(t.a)
              && r.a.annotations == Selected(global, AnnotationKey(t.a), t.a.annotations)
              && |AttachedFunctions(r.a)| == |AttachedFunctions(t.a)|
    ensures t.Annotatable? ==> r.a == t.a.(annotations := r.a.annotations, kind := r.a.kind)
    ensures t.Annotatable? && Tag(t.a) != ObjectTag ==> r.a.kind == t.a.kind
    ensures t.Annotatable? && Tag(t.a) == ObjectTag ==>
              r.a.kind == t.a.kind.(attachedFunctions := AttachedFunctions(r.a))
    ensures t.Annotatable? && Tag(t.a) == ObjectTag ==>
              forall i :: 0 <= i < |AttachedFunctions(t.a)| ==>
                var f := AttachedFunctions(t.a)[i];
                AttachedFunctions(r.a)[i] == f.(annotations := Selected(global, f.annotationKey, f.annotations))
  {
    match t
    case Annotatable(a) =>
      var annotated := SetAnnotations(a, Selected(global, AnnotationKey(a), a.annotations));
      if Tag(annotated) != ObjectTag then Annotatable(annotated)
      else
        var fs := AttachToFunctions(global, annotated.kind.attachedFunctions);
        Annotatable(annotated.(kind := annotated.kind.(attachedFunctions := fs)))
    case _ => t
  }

  /** The annotation map a thunk yields when it is called on the strand, or the current
      one when the key is absent. `call` stands for `FPValue.call`. */
  function Evaluated(global: GlobalAnnotationThunks, key: string, current: AnnotMap,
                     strand: Option<Strand>, call: (FPValue, Option<Strand>) -> AnnotMap): AnnotMap
  {
    if BString(key) in global then call(global[BString(key)], strand) else current
  }

  function EvaluateForFunctions(global: GlobalAnnotationThunks, fs: seq<AttachedFunction>,
                                strand: Option<Strand>, call: (FPValue, Option<Strand>) -> AnnotMap)
    : (r: seq<AttachedFunction>)
    ensures |r| == |fs|
    ensures forall i :: 0 <= i < |fs| ==>
              r[i].funcName == fs[i].funcName && r[i].annotationKey == fs[i].annotationKey
    ensures forall i :: 0 <= i < |fs| && BString(fs[i].annotationKey) in global ==>
              r[i].annotations == call(global[BString(fs[i].annotationKey)], strand)
    ensures forall i :: 0 <= i < |fs| && BString(fs[i].annotationKey) !in global ==> r[i] == fs[i]
  {
    if |fs| == 0 then []
    else
      [fs[0].(annotations := Evaluated(global, fs[0].annotationKey, fs[0].annotations, strand, call))]
      + EvaluateForFunctions(global, fs[1..], strand, call)
  }

  /** `processServiceAnnotations`: the service type and each of its methods whose key is
      present get the annotation map obtained by calling the stored function pointer on the
      strand; those whose key is absent keep their annotations. */
  function ProcessServiceAnnotations(global: GlobalAnnotationThunks, service: AnnotatableType,
                                     strand: Option<Strand>,
                                     call: (FPValue, Option<Strand>) -> AnnotMap): (r: AnnotatableType)
    requires service.kind.ObjectKind? && service.kind.isService
    ensures r.typeName == service.typeName && r.pkg == service.pkg
    ensures AnnotationKey(r) == AnnotationKey(service) && Tag(r) == Tag(service)
    ensures BString(AnnotationKey(service)) in global ==>
              r.annotations == call(global[BString(AnnotationKey(service))], strand)
    ensures BString(AnnotationKey(service)) !in global ==> r.annotations == service.annotations
    ensures |AttachedFunctions(r)| == |AttachedFunctions(service)|
    ensures forall i :: 0 <= i < |AttachedFunctions(service)| ==>
              var f := AttachedFunctions(service)[i];
              AttachedFunctions(r)[i] == f.(annotations := Evaluated(global, f.annotationKey, f.annotations, strand, call))
  {
    var annotated := service.(annotations := Evaluated(global, AnnotationKey(service), service.annotations, strand, call));
    var fs := EvaluateForFunctions(global, service.kind.attachedFunctions, strand, call);
    annotated.(kind := annotated.kind.(attachedFunctions := fs))
  }

  /** `processFPValueAnnotations`: the function pointer's type gets the annotations under
      `name` if and only if that key is present; nothing else about the pointer changes. */
  function ProcessFPValueAnnotations(fp: FPValue, global: GlobalAnnotations, name: string): (r: FPValue)
    ensures r == fp.(fpType := r.fpType)
    ensures r.fpType == fp.fpType.(annotations := r.fpType.annotations)
    ensures BString(name) in global ==> r.fpType.annotations == global[BString(name)]
    ensures BString(name) in global ==>
              forall key :: GetAnnotation(r.fpType, key) == Lookup(global[BString(name)], key)
    ensures BString(name) !in global ==> r == fp
  {
    if BString(name) in global then fp.(fpType := SetAnnotations(fp.fpType, global[BString(name)]))
    else fp
  }

  predicate IsConcurrent(fp: FPValue) {
    fp.isConcurrent
  }

  /** `getStrandName`: the pointer's own strand name when it has one, `defaultName` otherwise. */
  function GetStrandName(fp: FPValue, defaultName: string): (r: string)
    ensures fp.strandName.Some? ==> r == fp.strandName.value
    ensures fp.strandName.None? ==> r == defaultName
  {
    fp.strandName.GetOr(defaultName)
  }

  /** Processing the same global map twice is processing it once. */
  lemma {:induction false} ProcessAnnotationsIdempotent(global: GlobalAnnotations, t: Type)
    ensures ProcessAnnotations(global, ProcessAnnotations(global, t)) == ProcessAnnotations(global, t)
  {
    if t.Annotatable? {
      var once := ProcessAnnotations(global, t);
      var twice := ProcessAnnotations(global, once);
      if Tag(t.a) == ObjectTag {
        var fs := AttachedFunctions(t.a);
        assert AttachedFunctions(twice.a) == AttachedFunctions(once.a) by {
          forall i | 0 <= i < |fs|
            ensures AttachedFunctions(twice.a)[i] == AttachedFunctions(once.a)[i]
          {
            var f := fs[i];
            assert AttachedFunctions(once.a)[i] == f.(annotations := Selected(global, f.annotationKey, f.annotations));
          }
        }
      }
    }
  }

  /** Processing a function pointer twice with the same map and name is processing it once,
      and with an empty global map it changes nothing. */
  lemma ProcessFPValueAnnotationsIdempotent(fp: FPValue, global: GlobalAnnotations, name: string)
    ensures var once := ProcessFPValueAnnotations(fp, global, name);
            ProcessFPValueAnnotations(once, global, name) == once
    ensures ProcessFPValueAnnotations(fp, map[], name) == fp
  {
  }

  /** Annotations under keys the global map does not hold are never touched: with an empty
      global map, processing changes nothing. */
  lemma ProcessAnnotationsWithEmptyMap(t: Type)
    ensures ProcessAnnotations(map[], t) == t
  {
    if t.Annotatable? && Tag(t.a) == ObjectTag {
      var fs := t.a.kind.attachedFunctions;
      assert AttachToFunctions(map[], fs) == fs;
    }
  }

  /** A function pointer made by `createFPValue` is never concurrent, and its strand name
      is the one it was created with, or the default when it was created without one. */
  lemma CreatedPointerStrandName(target: FunctionRef, fpType: AnnotatableType,
                                 strandName: Option<string>, defaultName: string)
    ensures !IsConcurrent(BValueCreator.CreateFPValue(target, fpType, strandName))
    ensures GetStrandName(BValueCreator.CreateFPValue(target, fpType, strandName), defaultName)
              == if strandName.Some? then strandName.value else defaultName
  {
  }
}

=== FILE: error_utils.dfy ===
/** `ErrorUtils`: turning Java throwables and failed conversions into error values, and
    the helpers that throw the error they build instead of returning it. */
module ErrorUtils {
  import opened Wrappers
  import opened RuntimeValues

  const MessageField := BString("message")
  const CauseField := BString("cause")
  const NullReferenceText := BString("NullReferenceException")
  const NullReferenceReason := Text(NullReferenceText)

  /** The outcome of a helper that may throw an error value instead of returning. */
  datatype Raised<+T> = Returned(value: T) | Thrown(error: ErrorValue)

  /** `BStringUtils.fromString` of a Java string that may be null. */
  function FromNullable(s: Option<string>): (r: Option<BString>)
    ensures r.Some? <==> s.Some?
    ensures r.Some? ==> r.value.chars == s.value
  {
    if s.Some? then Some(BString(s.value)) else None
  }

  /** The error made from a throwable's cause: its reason is the cause's class name and its
      detail is the cause's (possibly null) message. */
  function CauseError(cause: Throwable): (r: ErrorValue) {
    ErrorValue(Text(BString(cause.className)), MessageDetail(FromNullable(cause.message)), None)
  }

  /** `createInteropError`: the reason is the throwable's class name; the detail map holds
      `message` exactly when the throwable has a message and `cause` exactly when it has a
      cause, and nothing else. */
  function CreateInteropError(e: Throwable): (r: ErrorValue)
    ensures r.reason == Text(BString(e.className))
    ensures r.detail.MapDetail?
    ensures r.detail.entries.Keys <= {MessageField, CauseField}
    ensures MessageField in r.detail.entries <==> e.message.Some?
    ensures e.message.Some? ==> r.detail.entries[MessageField] == Str(BString(e.message.value))
    ensures CauseField in r.detail.entries <==> e.cause.Some?
    ensures e.cause.Some? ==>
              && r.detail.entries[CauseField].Error?
              && r.detail.entries[CauseField].err.reason == Text(BString(e.cause.value.className))
              && r.detail.entries[CauseField].err.detail == MessageDetail(FromNullable(e.cause.value.message))
  {
    var withMessage: map<BString, Value> :=
      if e.message.Some? then map[MessageField := Str(BString(e.message.value))] else map[];
    var detail :=
      if e.cause.Some? then withMessage[CauseField := Error(CauseError(e.cause.value))] else withMessage;
    ErrorValue(Text(BString(e.className)), MapDetail(detail), None)
  }

  /** `handleResourceError`: an error value is thrown, any other value is returned as is. */
  function HandleResourceError(returnValue: Value): (r: Raised<Value>)
    ensures r.Thrown? <==> returnValue.Error?
    ensures r.Thrown? ==> r.error == returnValue.err
    ensures r.Returned? ==> r.value == returnValue
  {
    if returnValue.Error? then Thrown(returnValue.err) else Returned(returnValue)
  }

  /** `trapError`: whatever the throwable, the error has the stack overflow reason, no
      detail, and the throwable's stack trace. */
  function TrapError(throwable: Throwable): (r: ErrorValue)
    ensures r.reason == Predefined(StackOverflowError)
    ensures r.stack == Some(throwable.stack)
    ensures r.detail == NoDetail
  {
    ErrorValue(Predefined(StackOverflowError), NoDetail, Some(throwable.stack))
  }

  function CreateCancelledFutureError(): (r: ErrorValue)
    ensures r.reason == Predefined(FutureCancelled) && r.detail == NoDetail
  {
    ErrorValue(Predefined(FutureCancelled), NoDetail, None)
  }

  function CreateNullReferenceError(): (r: ErrorValue)
    ensures r.reason == NullReferenceReason && r.detail == NoDetail
  {
    ErrorValue(NullReferenceReason, NoDetail, None)
  }

  /** `createConversionError` returns (does not throw) a conversion error whose message
      names the input's type and the target type; `typeOf` stands for `TypeChecker.getType`. */
  function CreateConversionError(inputValue: Value, targetType: TypeRef, typeOf: Value -> TypeRef): (r: ErrorValue)
    ensures r.reason == Predefined(PrefixedConversionError)
    ensures r.detail == FormattedDetail(IncompatibleConvertOperation, [TypeArg(typeOf(inputValue)), TypeArg(targetType)])
  {
    ErrorValue(Predefined(PrefixedConversionError),
               FormattedDetail(IncompatibleConvertOperation, [TypeArg(typeOf(inputValue)), TypeArg(targetType)]),
               None)
  }

  /** `createTypeCastError` never returns: it throws a type cast error naming the source
      value's type and the target type. */
  function CreateTypeCastError(sourceVal: Value, targetType: TypeRef, typeOf: Value -> TypeRef): (r: Raised<ErrorValue>)
    ensures r.Thrown?
    ensures r.error.reason == Predefined(TypeCastError)
    ensures r.error.detail == FormattedDetail(TypeCastMessage, [TypeArg(typeOf(sourceVal)), TypeArg(targetType)])
  {
    Thrown(ErrorValue(Predefined(TypeCastError),
                      FormattedDetail(TypeCastMessage, [TypeArg(typeOf(sourceVal)), TypeArg(targetType)]),
                      None))
  }

  /** `createBToJTypeCastError` never returns: it throws a type cast error naming the source
      value's type and the Java target type. */
  function CreateBToJTypeCastError(sourceVal: Value, targetType: string, typeOf: Value -> TypeRef): (r: Raised<ErrorValue>)
    ensures r.Thrown?
    ensures r.error.reason == Predefined(TypeCastError)
    ensures r.error.detail == FormattedDetail(JavaTypeCastMessage, [TypeArg(typeOf(sourceVal)), NameArg(targetType)])
  {
    Thrown(ErrorValue(Predefined(TypeCastError),
                      FormattedDetail(JavaTypeCastMessage, [TypeArg(typeOf(sourceVal)), NameArg(targetType)]),
                      None))
  }

  /** Both `createNumericConversionError` overloads never return: they throw a number
      conversion error naming the input type, the input value and the target type. The
      first overload takes the input type from the value. */
  function CreateNumericConversionError(inputValue: Value, targetType: TypeRef, typeOf: Value -> TypeRef): (r: Raised<ErrorValue>)
    ensures r.Thrown? && r.error.reason == Predefined(NumberConversionError)
    ensures r == CreateNumericConversionErrorOfType(inputValue, typeOf(inputValue), targetType)
  {
    CreateNumericConversionErrorOfType(inputValue, typeOf(inputValue), targetType)
  }

  function CreateNumericConversionErrorOfType(inputValue: Value, inputType: TypeRef, targetType: TypeRef): (r: Raised<ErrorValue>)
    ensures r.Thrown?
    ensures r.error.reason == Predefined(NumberConversionError)
    ensures r.error.detail == FormattedDetail(IncompatibleSimpleTypeConvertOperation,
                                              [TypeArg(inputType), ValueArg(inputValue), TypeArg(targetType)])
  {
    Thrown(ErrorValue(Predefined(NumberConversionError),
                      FormattedDetail(IncompatibleSimpleTypeConvertOperation,
                                      [TypeArg(inputType), ValueArg(inputValue), TypeArg(targetType)]),
                      None))
  }

  /** A trapped failure, a cancelled future, a null reference and an interop error are told
      apart by the text of their reasons, whatever throwables they come from, as long as the
      predefined reasons are spelled differently from each other, from
      `NullReferenceException` and from the thrown class's name. */
  lemma ErrorReasonsDistinguishOrigin(t: Throwable, e: Throwable, predefinedText: PredefinedReason -> BString)
    requires DistinctTexts(predefinedText)
    requires NotPredefined(NullReferenceText, predefinedText)
    requires NotPredefined(BString(e.className), predefinedText)
    requires BString(e.className) != NullReferenceText
    ensures var trapped := ReasonText(TrapError(t).reason, predefinedText);
            var cancelled := ReasonText(CreateCancelledFutureError().reason, predefinedText);
            var nullRef := ReasonText(CreateNullReferenceError().reason, predefinedText);
            var interop := ReasonText(CreateInteropError(e).reason, predefinedText);
            && trapped != cancelled && trapped != nullRef && trapped != interop
            && cancelled != nullRef && cancelled != interop
            && nullRef != interop
  {
  }

  /** Of the conversion helpers, `createConversionError` hands its error back while the
      type cast and number conversion helpers throw theirs. The three reasons differ as long
      as the predefined reasons are spelled differently. The two type cast helpers share
      their reason and differ in the message template. */
  lemma ConversionErrorsByOrigin(v: Value, targetType: TypeRef, javaTargetType: string, inputType: TypeRef,
                                 typeOf: Value -> TypeRef, predefinedText: PredefinedReason -> BString)
    requires DistinctTexts(predefinedText)
    ensures CreateTypeCastError(v, targetType, typeOf).Thrown?
    ensures CreateBToJTypeCastError(v, javaTargetType, typeOf).Thrown?
    ensures CreateNumericConversionError(v, targetType, typeOf).Thrown?
    ensures CreateNumericConversionErrorOfType(v, inputType, targetType).Thrown?
    ensures var converted := ReasonText(CreateConversionError(v, targetType, typeOf).reason, predefinedText);
            var cast := ReasonText(CreateTypeCastError(v, targetType, typeOf).error.reason, predefinedText);
            var numeric := ReasonText(CreateNumericConversionErrorOfType(v, inputType, targetType).error.reason, predefinedText);
            converted != cast && converted != numeric && cast != numeric
    ensures CreateBToJTypeCastError(v, javaTargetType, typeOf).error.reason
              == CreateTypeCastError(v, targetType, typeOf).error.reason
    ensures CreateBToJTypeCastError(v, javaTargetType, typeOf).error.detail
              != CreateTypeCastError(v, targetType, typeOf).error.detail
  {
  }

  /** The error made from a throwable that has neither message nor cause has an empty
      detail map. */
  lemma InteropErrorOfBareThrowable(className: string, isException: bool, stack: StackTrace)
    ensures CreateInteropError(Throwable(className, isException, None, None, stack)).detail == MapDetail(map[])
  {
  }

  /** Handling a resource error lets a non-error value through unchanged, so applying it to
      its own returned value returns that value again. */
  lemma HandleResourceErrorIdempotent(v: Value)
    ensures HandleResourceError(v).Returned? ==> HandleResourceError(HandleResourceError(v).value) == HandleResourceError(v)
  {
  }
}

=== FILE: function_pointers.dfy ===
/** Function pointer values (`FPValue`): the function they point to, their annotatable
    function type, the strand name they were created with and their concurrency flag. */
module FunctionPointers {
  import opened Wrappers
  import opened Types

  /** A Java function the pointer calls; its code is not modelled. */
  datatype FunctionRef = FunctionRef(id: nat)

  datatype FPValue = FPValue(target: FunctionRef, fpType: AnnotatableType,
                             strandName: Option<string>, isConcurrent: bool)
}

=== FILE: instruction_kind.dfy ===
/** `InstructionKind`: the kinds of BIR instruction and the byte code each is written
    as. The codes sit in four disjoint ranges, one per group of instructions. */
module InstructionKinds {
  import opened Wrappers

  /** A Java `byte`. */
  newtype Byte = x: int | -128 <= x < 128

  datatype InstructionKind =
    // terminating instructions
    | Goto | Call | Branch | Return | AsyncCall | Wait
    | FpCall
    // non-terminating instructions
    | Move | ConstLoad | NewStructure | MapStore | MapLoad | NewArray
    | ArrayStore | ArrayLoad | NewError | TypeCast | IsLike | TypeTest
    | NewInstance | ObjectStore | ObjectLoad | Panic | FpLoad | NewXmlElement
    | NewXmlText | NewXmlComment | NewXmlPi | NewXmlSeq | NewXmlQname | NewStringXmlQname
    | XmlSeqStore | XmlSeqLoad | XmlLoad | XmlLoadAll | XmlAttributeLoad | XmlAttributeStore
    | NewTable | NewTypedesc | NewStream
    // binary-operator instructions
    | Add | Sub | Mul | Div | Mod | Equal
    | NotEqual | GreaterThan | GreaterEqual | LessThan | LessEqual | And
    | Or
    // unary-operator instructions
    | Typeof | Not

  /** The group an instruction kind is declared in. */
  datatype Category = Terminating | NonTerminating | BinaryOperator | UnaryOperator

  /** `getValue`: the byte code the kind was declared with. */
  function GetValue(k: InstructionKind): (r: Byte) {
    match k
    case Goto => 1
    case Call => 2
    case Branch => 3
    case Return => 4
    case AsyncCall => 5
    case Wait => 6
    case FpCall => 7
    case Move => 20
    case ConstLoad => 21
    case NewStructure => 22
    case MapStore => 23
    case MapLoad => 24
    case NewArray => 25
    case ArrayStore => 26
    case ArrayLoad => 27
    case NewError => 28
    case TypeCast => 29
    case IsLike => 30
    case TypeTest => 31
    case NewInstance => 32
    case ObjectStore => 33
    case ObjectLoad => 34
    case Panic => 35
    case FpLoad => 36
    case NewXmlElement => 37
    case NewXmlText => 38
    case NewXmlComment => 39
    case NewXmlPi => 40
    case NewXmlSeq => 41
    case NewXmlQname => 42
    case NewStringXmlQname => 43
    case XmlSeqStore => 44
    case XmlSeqLoad => 45
    case XmlLoad => 46
    case XmlLoadAll => 47
    case XmlAttributeLoad => 48
    case XmlAttributeStore => 49
    case NewTable => 50
    case NewTypedesc => 51
    case NewStream => 52
    case Add => 61
    case Sub => 62
    case Mul => 63
    case Div => 64
    case Mod => 65
    case Equal => 66
    case NotEqual => 67
    case GreaterThan => 68
    case GreaterEqual => 69
    case LessThan => 70
    case LessEqual => 71
    case And => 72
    case Or => 73
    case Typeof => 80
    case Not => 81
  }

  function CategoryOf(k: InstructionKind): Category {
    match k
    case Goto => Terminating
    case Call => Terminating
    case Branch => Terminating
    case Return => Terminating
    case AsyncCall => Terminating
    case Wait => Terminating
    case FpCall => Terminating
    case Move => NonTerminating
    case ConstLoad => NonTerminating
    case NewStructure => NonTerminating
    case MapStore => NonTerminating
    case MapLoad => NonTerminating
    case NewArray => NonTerminating
    case ArrayStore => NonTerminating
    case ArrayLoad => NonTerminating
    case NewError => NonTerminating
    case TypeCast => NonTerminating
    case IsLike => NonTerminating
    case TypeTest => NonTerminating
    case NewInstance => NonTerminating
    case ObjectStore => NonTerminating
    case ObjectLoad => NonTerminating
    case Panic => NonTerminating
    case FpLoad => NonTerminating
    case NewXmlElement => NonTerminating
    case NewXmlText => NonTerminating
    case NewXmlComment => NonTerminating
    case NewXmlPi => NonTerminating
    case NewXmlSeq => NonTerminating
    case NewXmlQname => NonTerminating
    case NewStringXmlQname => NonTerminating
    case XmlSeqStore => NonTerminating
    case XmlSeqLoad => NonTerminating
    case XmlLoad => NonTerminating
    case XmlLoadAll => NonTerminating
    case XmlAttributeLoad => NonTerminating
    case XmlAttributeStore => NonTerminating
    case NewTable => NonTerminating
    case NewTypedesc => NonTerminating
    case NewStream => NonTerminating
    case Add => BinaryOperator
    case Sub => BinaryOperator
    case Mul => BinaryOperator
    case Div => BinaryOperator
    case Mod => BinaryOperator
    case Equal => BinaryOperator
    case NotEqual => BinaryOperator
    case GreaterThan => BinaryOperator
    case GreaterEqual => BinaryOperator
    case LessThan => BinaryOperator
    case LessEqual => BinaryOperator
    case And => BinaryOperator
    case Or => BinaryOperator
    case Typeof => UnaryOperator
    case Not => UnaryOperator
  }

  /** The code range of each group. */
  predicate InRange(c: Category, code: Byte) {
    match c
    case Terminating => 1 <= code <= 7
    case NonTerminating => 20 <= code <= 52
    case BinaryOperator => 61 <= code <= 73
    case UnaryOperator => 80 <= code <= 81
  }

  /** The decoding table: a byte is placed in its group's range, then looked up within
      the group. */
  function DecodeTable(b: Byte): Option<InstructionKind> {
    if InRange(Terminating, b) then DecodeTerminating(b)
    else if InRange(NonTerminating, b) then DecodeNonTerminating(b)
    else if InRange(BinaryOperator, b) then DecodeBinaryOperator(b)
    else if InRange(UnaryOperator, b) then DecodeUnaryOperator(b)
    else None
  }

  /** Reading a byte back as an instruction kind: the table's answer, accepted only when
      that kind is declared with the byte read; a byte that no kind uses gives `None`. */
  function Decode(b: Byte): (r: Option<InstructionKind>)
    ensures r.Some? ==> GetValue(r.value) == b
  {
    var k := DecodeTable(b);
    if k.Some? && GetValue(k.value) == b then k else None
  }

  function DecodeTerminating(b: Byte): Option<InstructionKind> {
    match b
    case 1 => Some(Goto)
    case 2 => Some(Call)
    case 3 => Some(Branch)
    case 4 => Some(Return)
    case 5 => Some(AsyncCall)
    case 6 => Some(Wait)
    case 7 => Some(FpCall)
    case _ => None
  }

  function DecodeNonTerminating(b: Byte): Option<InstructionKind> {
    match b
    case 20 => Some(Move)
    case 21 => Some(ConstLoad)
    case 22 => Some(NewStructure)
    case 23 => Some(MapStore)
    case 24 => Some(MapLoad)
    case 25 => Some(NewArray)
    case 26 => Some(ArrayStore)
    case 27 => Some(ArrayLoad)
    case 28 => Some(NewError)
    case 29 => Some(TypeCast)
    case 30 => Some(IsLike)
    case 31 => Some(TypeTest)
    case 32 => Some(NewInstance)
    case 33 => Some(ObjectStore)
    case 34 => Some(ObjectLoad)
    case 35 => Some(Panic)
    case 36 => Some(FpLoad)
    case 37 => Some(NewXmlElement)
    case 38 => Some(NewXmlText)
    case 39 => Some(NewXmlComment)
    case 40 => Some(NewXmlPi)
    case 41 => Some(NewXmlSeq)
    case 42 => Some(NewXmlQname)
    case 43 => Some(NewStringXmlQname)
    case 44 => Some(XmlSeqStore)
    case 45 => Some(XmlSeqLoad)
    case 46 => Some(XmlLoad)
    case 47 => Some(XmlLoadAll)
    case 48 => Some(XmlAttributeLoad)
    case 49 => Some(XmlAttributeStore)
    case 50 => Some(NewTable)
    case 51 => Some(NewTypedesc)
    case 52 => Some(NewStream)
    case _ => None
  }

  function DecodeBinaryOperator(b: Byte): Option<InstructionKind> {
    match b
    case 61 => Some(Add)
    case 62 => Some(Sub)
    case 63 => Some(Mul)
    case 64 => Some(Div)
    case 65 => Some(Mod)
    case 66 => Some(Equal)
    case 67 => Some(NotEqual)
    case 68 => Some(GreaterThan)
    case 69 => Some(GreaterEqual)
    case 70 => Some(LessThan)
    case 71 => Some(LessEqual)
    case 72 => Some(And)
    case 73 => Some(Or)
    case _ => None
  }

  function DecodeUnaryOperator(b: Byte): Option<InstructionKind> {
    match b
    case 80 => Some(Typeof)
    case 81 => Some(Not)
    case _ => None
  }

  /** Every kind's code lies in the range of its own group, and in no other. */
  lemma CodesInGroupRanges(k: InstructionKind)
    ensures InRange(CategoryOf(k), GetValue(k))
    ensures forall c: Category :: c != CategoryOf(k) ==> !InRange(c, GetValue(k))
  {
  }

  /** `Decode` is a left inverse of `GetValue`. */
  lemma DecodeGetValue(k: InstructionKind)
    ensures Decode(GetValue(k)) == Some(k)
  {
    var v := GetValue(k);
    if v <= 7 {
      DecodeGetValueInTerminating(k);
    } else if v <= 36 {
      DecodeGetValueInNonTerminatingLower(k);
    } else if v <= 52 {
      DecodeGetValueInNonTerminatingUpper(k);
    } else if v <= 73 {
      DecodeGetValueInBinaryOperator(k);
    } else {
      DecodeGetValueInUnaryOperator(k);
    }
  }

  // The left-inverse proof is split by code range, one helper per range, so that each
  // helper only unfolds the table for the kinds it covers.
  lemma DecodeGetValueInTerminating(k: InstructionKind)
    requires GetValue(k) <= 7
    ensures Decode(GetValue(k)) == Some(k)
  {
    match k
    case Goto =>
    case Call =>
    case Branch =>
    case Return =>
    case AsyncCall =>
    case Wait =>
    case FpCall =>
    case _ => assert false;
  }

  lemma DecodeGetValueInNonTerminatingLower(k: InstructionKind)
    requires 8 <= GetValue(k) && GetValue(k) <= 36
    ensures Decode(GetValue(k)) == Some(k)
  {
    match k
    case Move =>
    case ConstLoad =>
    case NewStructure =>
    case MapStore =>
    case MapLoad =>
    case NewArray =>
    case ArrayStore =>
    case ArrayLoad =>
    case NewError =>
    case TypeCast =>
    case IsLike =>
    case TypeTest =>
    case NewInstance =>
    case ObjectStore =>
    case ObjectLoad =>
    case Panic =>
    case FpLoad =>
    case _ => assert false;
  }

  lemma DecodeGetValueInNonTerminatingUpper(k: InstructionKind)
    requires 37 <= GetValue(k) && GetValue(k) <= 52
    ensures Decode(GetValue(k)) == Some(k)
  {
    match k
    case NewXmlElement =>
    case NewXmlText =>
    case NewXmlComment =>
    case NewXmlPi =>
    case NewXmlSeq =>
    case NewXmlQname =>
    case NewStringXmlQname =>
    case XmlSeqStore =>
    case XmlSeqLoad =>
    case XmlLoad =>
    case XmlLoadAll =>
    case XmlAttributeLoad =>
    case XmlAttributeStore =>
    case NewTable =>
    case NewTypedesc =>
    case NewStream =>
    case _ => assert false;
  }

  lemma DecodeGetValueInBinaryOperator(k: InstructionKind)
    requires 53 <= GetValue(k) && GetValue(k) <= 73
    ensures Decode(GetValue(k)) == Some(k)
  {
    match k
    case Add =>
    case Sub =>
    case Mul =>
    case Div =>
    case Mod =>
    case Equal =>
    case NotEqual =>
    case GreaterThan =>
    case GreaterEqual =>
    case LessThan =>
    case LessEqual =>
    case And =>
    case Or =>
    case _ => assert false;
  }

  lemma DecodeGetValueInUnaryOperator(k: InstructionKind)
    requires 74 <= GetValue(k)
    ensures Decode(GetValue(k)) == Some(k)
  {
    match k
    case Typeof =>
    case Not =>
    case _ => assert false;
  }

  /** No two kinds share a code. */
  lemma CodesDistinct(k1: InstructionKind, k2: InstructionKind)
    requires GetValue(k1) == GetValue(k2)
    ensures k1 == k2
  {
    DecodeGetValue(k1);
    DecodeGetValue(k2);
  }

  /** A byte decodes to nothing exactly when no kind has it as its code. */
  lemma DecodeNoneExactlyForUnusedCodes(b: Byte)
    ensures Decode(b).None? <==> forall k :: GetValue(k) != b
  {
    forall k
      ensures Decode(b).None? ==> GetValue(k) != b
    {
      DecodeGetValue(k);
    }
  }
}

=== FILE: package_cache.dfy ===
/** `ProjectPackageCache`: the per-project package cache that answers requests for the
    project's current package itself and hands every other request to the global cache. */
module PackageCache {
  import opened Wrappers

  /** A package id object; `ref` is its object identity, `uuid` its value. */
  datatype PackageId = PackageId(ref: nat, uuid: nat)

  datatype Package = Package(packageId: PackageId, org: string, name: string, version: string)

  /** The global cache the project cache delegates to: its operations over a state `G`
      that the model does not look inside. */
  datatype GlobalCache<!G> = GlobalCache(
    cache: (G, Package) -> G,
    getPackage: (G, PackageId) -> Option<Package>,
    getPackageOrThrow: (G, PackageId) -> Result<Package, string>,
    getPackageByVersion: (G, string, string, string) -> Option<Package>,
    getPackages: (G, string, string) -> seq<Package>)

  /** The project cache: the project's current package and the global cache's state. */
  datatype ProjectPackageCache<G> = ProjectPackageCache(currentPackage: Package, global: G)

  /** `isCurrentPackage`: the id is the very object the current package holds. */
  predicate IsCurrentPackage<G>(pc: ProjectPackageCache<G>, packageId: PackageId) {
    pc.currentPackage.packageId.ref == packageId.ref
  }

  /** `cache` only forwards to the global cache; the project is untouched. */
  function Cache<G>(pc: ProjectPackageCache<G>, ops: GlobalCache<G>, pkg: Package): (r: ProjectPackageCache<G>)
    ensures r.currentPackage == pc.currentPackage
    ensures r.global == ops.cache(pc.global, pkg)
  {
    pc.(global := ops.cache(pc.global, pkg))
  }

  /** `getPackage(id)`: the current package for its own id, the global cache's answer
      for every other id. */
  function GetPackage<G>(pc: ProjectPackageCache<G>, ops: GlobalCache<G>, packageId: PackageId): (r: Option<Package>)
    ensures IsCurrentPackage(pc, packageId) ==> r == Some(pc.currentPackage)
    ensures !IsCurrentPackage(pc, packageId) ==> r == ops.getPackage(pc.global, packageId)
  {
    if IsCurrentPackage(pc, packageId) then Some(pc.currentPackage)
    else ops.getPackage(pc.global, packageId)
  }

  /** `getPackageOrThrow(id)`: the same routing, with the global cache's throwing lookup. */
  function GetPackageOrThrow<G>(pc: ProjectPackageCache<G>, ops: GlobalCache<G>, packageId: PackageId)
    : (r: Result<Package, string>)
    ensures IsCurrentPackage(pc, packageId) ==> r == Success(pc.currentPackage)
    ensures !IsCurrentPackage(pc, packageId) ==> r == ops.getPackageOrThrow(pc.global, packageId)
  {
    if IsCurrentPackage(pc, packageId) then Success(pc.currentPackage)
    else ops.getPackageOrThrow(pc.global, packageId)
  }

  /** Lookup by organization, name and version always delegates, even for the current
      package's coordinates. */
  function GetPackageByVersion<G>(pc: ProjectPackageCache<G>, ops: GlobalCache<G>,
                                  org: string, name: string, version: string): (r: Option<Package>)
    ensures r == ops.getPackageByVersion(pc.global, org, name, version)
  {
    ops.getPackageByVersion(pc.global, org, name, version)
  }

  /** `getPackages` always delegates. */
  function GetPackages<G>(pc: ProjectPackageCache<G>, ops: GlobalCache<G>, org: string, name: string)
    : (r: seq<Package>)
    ensures r == ops.getPackages(pc.global, org, name)
  {
    ops.getPackages(pc.global, org, name)
  }

  /** The two id lookups route alike: both answer the current package for its own id, and
      both leave every other id to the global cache. This puts side by side what the ensures
      of `GetPackage` and `GetPackageOrThrow` state separately. */
  lemma IdLookupsRouteAlike<G>(pc: ProjectPackageCache<G>, ops: GlobalCache<G>, packageId: PackageId)
    ensures IsCurrentPackage(pc, packageId) ==>
              GetPackage(pc, ops, packageId) == Some(pc.currentPackage) &&
              GetPackageOrThrow(pc, ops, packageId) == Success(pc.currentPackage)
    ensures !IsCurrentPackage(pc, packageId) ==>
              GetPackage(pc, ops, packageId) == ops.getPackage(pc.global, packageId) &&
              GetPackageOrThrow(pc, ops, packageId) == ops.getPackageOrThrow(pc.global, packageId)
  {
  }

  /** Whatever is cached, asking for the current package's own id still yields the current
      package: it shadows the global cache. */
  lemma CurrentPackageShadowsCache<G>(pc: ProjectPackageCache<G>, ops: GlobalCache<G>, pkg: Package)
    ensures GetPackage(Cache(pc, ops, pkg), ops, pc.currentPackage.packageId) == Some(pc.currentPackage)
    ensures GetPackageOrThrow(Cache(pc, ops, pkg), ops, pc.currentPackage.packageId) == Success(pc.currentPackage)
  {
  }

  /** The test is identity, not value: an id object equal in value to the current package's
      id but distinct from it is routed to the global cache. */
  lemma EqualIdOtherObjectGoesGlobal<G>(pc: ProjectPackageCache<G>, ops: GlobalCache<G>, packageId: PackageId)
    requires packageId.uuid == pc.currentPackage.packageId.uuid
    requires packageId.ref != pc.currentPackage.packageId.ref
    ensures GetPackage(pc, ops, packageId) == ops.getPackage(pc.global, packageId)
  {
  }
}

=== FILE: record_type.dfy ===
/** `BRecordType`: a user-defined record type, its flag predicates and its empty value. */
module RecordTypes {
  import opened Wrappers
  import opened RuntimeValues
  import opened Types

  /** An annotatable type that is a record type. */
  type RecordType = t: AnnotatableType | t.kind.RecordKind?
    witness AnnotatableType("", None, RecordKind(RecordInfo({}, [], None, false, {}, false, None)), map[])

  /** A field is left out of the empty value when it is optional. */
  predicate IsOptional(f: Field) {
    Optional in f.flags
  }

  function FieldKey(f: Field): BString {
    BString(f.name)
  }

  /** The field map of the source has one entry per name. */
  predicate DistinctFieldNames(fields: seq<Field>) {
    forall i, j :: 0 <= i < j < |fields| ==> fields[i].name != fields[j].name
  }

  /** The record type constructor that takes no fields. */
  function NewRecordType(typeName: string, pkg: Option<ModuleId>, flags: set<Flag>, sealed: bool,
                         typeFlags: set<TypeFlag>): (r: RecordType)
    ensures IsReadOnly(r) <==> Readonly in flags
    ensures GetImmutableType(r).None?
    ensures r.kind.info.fields == [] && r.kind.info.restFieldType.None?
    ensures r.typeName == typeName && r.pkg == pkg
    ensures r.kind.info.typeFlags == typeFlags && r.kind.info.sealed == sealed
    ensures forall key :: GetAnnotation(r, key) == Nil
  {
    NewAnnotatable(typeName, pkg,
                   RecordKind(RecordInfo(flags, [], None, sealed, typeFlags, Readonly in flags, None)))
  }

  /** The record type constructor that takes the fields and the rest field type. */
  function NewRecordTypeWithFields(typeName: string, pkg: Option<ModuleId>, flags: set<Flag>,
                                   fields: seq<Field>, restFieldType: Option<TypeRef>, sealed: bool,
                                   typeFlags: set<TypeFlag>): (r: RecordType)
    ensures IsReadOnly(r) <==> Readonly in flags
    ensures GetImmutableType(r).None?
    ensures r.kind.info.fields == fields && r.kind.info.restFieldType == restFieldType
    ensures r.typeName == typeName && r.pkg == pkg
    ensures r.kind.info.typeFlags == typeFlags && r.kind.info.sealed == sealed
    ensures forall key :: GetAnnotation(r, key) == Nil
  {
    NewAnnotatable(typeName, pkg,
                   RecordKind(RecordInfo(flags, fields, restFieldType, sealed, typeFlags,
                                         Readonly in flags, None)))
  }

  /** A record type always reports the record tag. */
  function GetTag(t: RecordType): (r: TypeTag)
    ensures r == RecordTag
  {
    Tag(t)
  }

  /** Annotations of a record type are stored under its type name. */
  function GetAnnotationKey(t: RecordType): (r: string)
    ensures r == t.typeName
  {
    AnnotationKey(t)
  }

  predicate IsAnydata(t: RecordType) {
    Anydata in t.kind.info.typeFlags
  }

  predicate IsPureType(t: RecordType) {
    PureType in t.kind.info.typeFlags
  }

  predicate IsReadOnly(t: RecordType) {
    t.kind.info.readonly
  }

  function GetImmutableType(t: RecordType): (r: Option<TypeRef>) {
    t.kind.info.immutableType
  }

  function SetImmutableType(t: RecordType, immutableType: TypeRef): (r: RecordType)
    ensures GetImmutableType(r) == Some(immutableType)
    ensures IsReadOnly(r) == IsReadOnly(t)
    ensures r.kind.info.fields == t.kind.info.fields && r.annotations == t.annotations
    ensures r == t.(kind := r.kind) && r.kind.info == t.kind.info.(immutableType := Some(immutableType))
  {
    t.(kind := t.kind.(info := t.kind.info.(immutableType := Some(immutableType))))
  }

  /** The keys of the fields that are not optional. */
  function RequiredKeys(fields: seq<Field>): set<BString> {
    set i | 0 <= i < |fields| && !IsOptional(fields[i]) :: FieldKey(fields[i])
  }

  /** The empty value of the fields, put into the map in declaration order; `emptyOf`
      gives the empty value of a field's type. */
  function EmptyEntries(fields: seq<Field>, emptyOf: TypeRef -> Value): (m: map<BString, Value>)
    requires DistinctFieldNames(fields)
    ensures m.Keys == RequiredKeys(fields)
    ensures forall i :: 0 <= i < |fields| && !IsOptional(fields[i]) ==>
              m[FieldKey(fields[i])] == emptyOf(fields[i].fieldType)
    decreases |fields|
  {
    if |fields| == 0 then map[]
    else
      var init := fields[..|fields| - 1];
      var last := fields[|fields| - 1];
      assert forall i :: 0 <= i < |init| ==> init[i] == fields[i];
      var m := EmptyEntries(init, emptyOf);
      if IsOptional(last) then m else m[FieldKey(last) := emptyOf(last.fieldType)]
  }

  /** `getEmptyValue`: a map holding exactly the non-optional fields,
      each bound to the empty value of its own type. */
  function GetEmptyValue(t: RecordType, emptyOf: TypeRef -> Value): (m: map<BString, Value>)
    requires DistinctFieldNames(t.kind.info.fields)
    ensures forall f :: f in t.kind.info.fields ==> (FieldKey(f) in m <==> !IsOptional(f))
    ensures forall key :: key in m ==> exists f :: f in t.kind.info.fields && FieldKey(f) == key
    ensures forall f :: f in t.kind.info.fields && !IsOptional(f) ==> m[FieldKey(f)] == emptyOf(f.fieldType)
  {
    var fields := t.kind.info.fields;
    var m := EmptyEntries(fields, emptyOf);
    forall f | f in fields
      ensures FieldKey(f) in m <==> !IsOptional(f)
    {
      var i :| 0 <= i < |fields| && fields[i] == f;
      if FieldKey(f) in m {
        var j :| 0 <= j < |fields| && !IsOptional(fields[j]) && FieldKey(fields[j]) == FieldKey(f);
        assert i == j by {
          // Two positions with the same key have the same name, which `DistinctFieldNames` forbids.
          assert fields[i].name == fields[j].name;
        }
      }
    }
    m
  }

  /** Both constructors take `readonly` from the READONLY bit of `flags`, and neither later
      mutator of a record type changes it. */
  lemma ReadOnlyNeverChanges(t: RecordType, immutableType: TypeRef, annotations: AnnotMap)
    ensures IsReadOnly(SetImmutableType(t, immutableType)) == IsReadOnly(t)
    ensures SetAnnotations(t, annotations).kind.RecordKind?
    ensures IsReadOnly(SetAnnotations(t, annotations)) == IsReadOnly(t)
  {
  }

  /** `getImmutableType` returns the last value set. */
  lemma ImmutableTypeLastWriteWins(t: RecordType, first: TypeRef, second: TypeRef)
    ensures GetImmutableType(SetImmutableType(SetImmutableType(t, first), second)) == Some(second)
  {
  }

  /** The flag predicates of a record type built by either constructor hold exactly when
      the corresponding bit is among the type flags given to it. */
  lemma FlagPredicates(typeName: string, pkg: Option<ModuleId>, flags: set<Flag>, fields: seq<Field>,
                       restFieldType: Option<TypeRef>, sealed: bool, typeFlags: set<TypeFlag>)
    ensures IsAnydata(NewRecordType(typeName, pkg, flags, sealed, typeFlags)) <==> Anydata in typeFlags
    ensures IsPureType(NewRecordType(typeName, pkg, flags, sealed, typeFlags)) <==> PureType in typeFlags
    ensures var r := NewRecordTypeWithFields(typeName, pkg, flags, fields, restFieldType, sealed, typeFlags);
            (IsAnydata(r) <==> Anydata in typeFlags) && (IsPureType(r) <==> PureType in typeFlags)
  {
  }
}

=== FILE: runtime_values.dfy ===
/** The runtime values that the native API builds and inspects: runtime strings, Java
    strings that still have to be converted, maps, XML items, type descriptor values and
    error values. Objects whose insides are not modelled are named by an identity. */
module RuntimeValues {
  import opened Wrappers

  /** A runtime string (`BString`), as produced by `BStringUtils.fromString`. */
  datatype BString = BString(chars: string)

  /** A type the model does not look inside. `NilType` is the type of `()`. */
  datatype TypeRef = NilType | TypeRef(id: nat)

  datatype Frame = Frame(declaringClass: string, methodName: string, line: int)

  type StackTrace = seq<Frame>

  /** A Java `Throwable`: its class name, whether it is an `Exception` (a `catch (Exception)`
      handler catches it) rather than an `Error` or another direct subclass of `Throwable`,
      its message (possibly null), its cause (possibly null) and its stack trace. */
  datatype Throwable = Throwable(className: string, isException: bool, message: Option<string>,
                                 cause: Option<Throwable>, stack: StackTrace)

  /** The predefined reasons of `BallerinaErrorReasons` that the error helpers use. */
  datatype PredefinedReason =
    | StackOverflowError
    | FutureCancelled
    | PrefixedConversionError
    | TypeCastError
    | NumberConversionError

  /** The reason of an error value: one of the predefined reasons, or a runtime string made
      from some other text. */
  datatype Reason = Predefined(which: PredefinedReason) | Text(name: BString)

  /** The runtime string a reason is. The texts of the predefined reasons are defined in
      `BallerinaErrorReasons`, which is not part of this model, so they are a parameter. */
  function ReasonText(r: Reason, predefinedText: PredefinedReason -> BString): BString {
    match r
    case Predefined(p) => predefinedText(p)
    case Text(name) => name
  }

  /** Different predefined reasons have different texts. */
  predicate DistinctTexts(predefinedText: PredefinedReason -> BString) {
    forall p, q :: predefinedText(p) == predefinedText(q) ==> p == q
  }

  /** No predefined reason is spelled `text`. */
  predicate NotPredefined(text: BString, predefinedText: PredefinedReason -> BString) {
    forall p :: predefinedText(p) != text
  }

  /** The message templates of `RuntimeErrors` used by the error helpers. */
  datatype MessageTemplate =
    | IncompatibleConvertOperation
    | TypeCastMessage
    | JavaTypeCastMessage
    | IncompatibleSimpleTypeConvertOperation

  /** One argument of a formatted runtime error message. */
  datatype MessageArg = TypeArg(t: TypeRef) | ValueArg(v: Value) | NameArg(name: string)

  /** The detail an error value was created with: nothing, a (possibly null) message
      string, a message formatted from a template, or a detail map. */
  datatype Detail =
    | NoDetail
    | MessageDetail(message: Option<BString>)
    | FormattedDetail(template: MessageTemplate, args: seq<MessageArg>)
    | MapDetail(entries: map<BString, Value>)

  /** An error value. `stack` is `Some` when a stack trace was set explicitly and `None`
      when it is the one captured where the error was created. */
  datatype ErrorValue = ErrorValue(reason: Reason, detail: Detail, stack: Option<StackTrace>)

  datatype Value =
    | Nil
    | Boolean(b: bool)
    | Int(i: int)
    | JavaString(s: string)
    | Str(bs: BString)
    | Xml(item: nat)
    | MapValue(entries: map<BString, Value>)
    | Error(err: ErrorValue)
    | TypedescValue(describing: TypeRef)
    | Object(ref: nat)

  /** How a value passed in from Java is stored: a Java string becomes a runtime string,
      every other value is kept as it is. */
  function ToRuntime(v: Value): (r: Value)
    ensures v.JavaString? ==> r.Str? && r.bs.chars == v.s
    ensures !v.JavaString? ==> r == v
  {
    if v.JavaString? then Str(BString(v.s)) else v
  }

  /** Converting never leaves a Java string behind, and converting twice is converting once. */
  lemma ToRuntimeNormalises(v: Value)
    ensures !ToRuntime(v).JavaString?
    ensures ToRuntime(ToRuntime(v)) == ToRuntime(v)
    ensures v.JavaString? <==> ToRuntime(v) != v
  {
  }

  /** The Java exceptions the modelled code can raise on its own. */
  function JavaException(className: string): Throwable {
    Throwable(className, true, None, None, [])
  }

  const IndexOutOfBounds := JavaException("java.lang.ArrayIndexOutOfBoundsException")
  const ClassCast := JavaException("java.lang.ClassCastException")
  const NullPointer := JavaException("java.lang.NullPointerException")
  const NegativeArraySize := JavaException("java.lang.NegativeArraySizeException")
}

=== FILE: scheduling.dfy ===
/** The part of a strand that native calls save and restore: its scheduling state and its
    `blockedOnExtern` flag. Queues, futures and the carrier threads are not modelled. */
module Scheduling {
  import opened Wrappers

  datatype State = Runnable | Yielded | Blocked | Done

  datatype SchedulerRef = SchedulerRef(id: nat)

  /** A strand: its identity, its optional name, the scheduler that owns it, its state and
      whether it is blocked on an external (native) call. */
  datatype Strand = Strand(id: nat, name: Option<string>, scheduler: SchedulerRef,
                           state: State, blockedOnExtern: bool)

  /** What the guard around a nested call remembers. */
  datatype SavedContext = SavedContext(state: State, blockedOnExtern: bool)

  function Save(s: Strand): (r: SavedContext) {
    SavedContext(s.state, s.blockedOnExtern)
  }

  /** The strand as the nested call sees it: runnable and not blocked on an extern. */
  function PrepareNested(s: Strand): (r: Strand)
    ensures r.state == Runnable && !r.blockedOnExtern
    ensures r.id == s.id && r.name == s.name && r.scheduler == s.scheduler
  {
    s.(state := Runnable, blockedOnExtern := false)
  }

  /** Puts back what `Save` remembered; everything else is what the nested call left. */
  function Restore(s: Strand, saved: SavedContext): (r: Strand)
    ensures Save(r) == saved
    ensures r.id == s.id && r.name == s.name && r.scheduler == s.scheduler
  {
    s.(state := saved.state, blockedOnExtern := saved.blockedOnExtern)
  }

  /** Whatever a nested call does to the strand, restoring what was saved before it gives
      back the saved state and flag. It follows from the ensures of `Restore` and is the
      property `createObjectValue` relies on, stated for the whole save-prepare-restore cycle. */
  lemma RestoreAfterAnyNestedCall(s: Strand, nested: Strand -> Strand)
    ensures Save(Restore(nested(PrepareNested(s)), Save(s))) == Save(s)
  {
  }
}

=== FILE: typedesc_type.dfy ===
/** `BTypedescType`: the type of type descriptor values. */
module TypedescTypes {
  import opened Wrappers
  import opened RuntimeValues
  import opened Types

  /** The name the constraint constructor gives (`TypeConstants.TYPEDESC_TNAME`). */
  const TypedescTypeName := "typedesc"

  /** The constructor taking a name and a package; it leaves the constraint null. */
  function NewNamedTypedesc(ref: nat, typeName: string, pkg: Option<ModuleId>): (r: TypedescType)
    ensures GetConstraint(r).None?
    ensures r.typeName == typeName && r.pkg == pkg && r.ref == ref
  {
    TypedescType(ref, typeName, pkg, None)
  }

  /** The constructor taking a constraint; it has the built-in name and no package. */
  function NewTypedescOf(ref: nat, constraint: TypeRef): (r: TypedescType)
    ensures GetConstraint(r) == Some(constraint)
    ensures r.typeName == TypedescTypeName && r.pkg.None? && r.ref == ref
  {
    TypedescType(ref, TypedescTypeName, None, Some(constraint))
  }

  function GetConstraint(t: TypedescType): (r: Option<TypeRef>) {
    t.constraint
  }

  /** The zero value is a type descriptor value describing nil. */
  function GetZeroValue(t: TypedescType): (v: Value)
    ensures v.TypedescValue? && v.describing == NilType
  {
    TypedescValue(NilType)
  }

  /** The empty value is the zero value: a type descriptor value describing nil. */
  function GetEmptyValue(t: TypedescType): (v: Value)
    ensures v == GetZeroValue(t) && v.describing == NilType
  {
    GetZeroValue(t)
  }

  function GetTag(t: TypedescType): (r: TypeTag) {
    TypedescTag
  }

  predicate IsReadOnly(t: TypedescType) {
    true
  }

  /** The empty value is the zero value, the tag is always the typedesc tag and every
      typedesc type is read-only, whatever its constructor. This gathers in one place what
      the ensures of `GetEmptyValue`, `GetTag` and `IsReadOnly` already state. */
  lemma TypedescConstants(t: TypedescType)
    ensures GetEmptyValue(t) == GetZeroValue(t) == TypedescValue(NilType)
    ensures GetTag(t) == TypedescTag
    ensures IsReadOnly(t)
  {
  }

  /** The argument of `equals`: a typedesc type or some other object. */
  datatype JavaObject = TypedescObject(td: TypedescType) | OtherObject(ref: nat)

  function RefOf(o: JavaObject): nat {
    match o
    case TypedescObject(td) => td.ref
    case OtherObject(ref) => ref
  }

  /** `equals` as written: the same object is equal; another typedesc type is compared by
      calling `equals` on this type's constraint, which throws when that constraint is null;
      any other object is unequal. */
  function Equals(t: TypedescType, obj: JavaObject): (r: Result<bool, Throwable>)
    ensures RefOf(obj) == t.ref ==> r == Success(true)
    ensures RefOf(obj) != t.ref && obj.OtherObject? ==> r == Success(false)
    ensures r.Failure? ==> r.error == NullPointer
    ensures RefOf(obj) != t.ref && obj.TypedescObject? ==>
              (r.Failure? <==> t.constraint.None?) &&
              (r.Success? ==> (r.value <==> obj.td.constraint == t.constraint))
  {
    if RefOf(obj) == t.ref then Success(true)
    else if obj.TypedescObject? then
      if t.constraint.None? then Failure(NullPointer)
      else Success(obj.td.constraint == t.constraint)
    else Success(false)
  }

  /** Two distinct typedesc types built by the name-only constructor make `equals` throw. */
  lemma EqualsThrowsOnUnsetConstraint()
    ensures Equals(NewNamedTypedesc(1, "typedesc", None),
                   TypedescObject(NewNamedTypedesc(2, "typedesc", None))) == Failure(NullPointer)
  {
  }

  /** `equals` with a null-safe comparison of the constraints. */
  predicate EqualsNullSafe(t: TypedescType, obj: JavaObject) {
    RefOf(obj) == t.ref || (obj.TypedescObject? && obj.td.constraint == t.constraint)
  }

  /** The null-safe comparison agrees with `equals` wherever `equals` returns. */
  lemma EqualsNullSafeRefinesEquals(t: TypedescType, obj: JavaObject)
    ensures Equals(t, obj).Success? ==> (EqualsNullSafe(t, obj) <==> Equals(t, obj).value)
  {
  }

  /** Over typedesc objects whose identity determines their contents, the null-safe
      comparison is an equivalence relation. */
  lemma EqualsNullSafeIsEquivalence(a: TypedescType, b: TypedescType, c: TypedescType)
    requires a.ref == b.ref ==> a == b
    requires b.ref == c.ref ==> b == c
    requires a.ref == c.ref ==> a == c
    ensures EqualsNullSafe(a, TypedescObject(a))
    ensures EqualsNullSafe(a, TypedescObject(b)) <==> EqualsNullSafe(b, TypedescObject(a))
    ensures EqualsNullSafe(a, TypedescObject(b)) && EqualsNullSafe(b, TypedescObject(c)) ==>
              EqualsNullSafe(a, TypedescObject(c))
  {
  }
}

=== FILE: types.dfy ===
/** Type descriptors of the runtime (`BType` and its subclasses) and the annotation slot
    that every annotatable type carries (`BAnnotatableType`). */
module Types {
  import opened Wrappers
  import opened RuntimeValues

  /** The annotations of a type: a map from `pkg:name` keys to annotation values. */
  type AnnotMap = map<BString, Value>

  datatype ModuleId = ModuleId(org: string, name: string, version: string)

  /** The bits of `Flags` the modelled code tests; every other bit is `OtherFlag`. */
  datatype Flag = Readonly | Optional | OtherFlag(name: string)

  /** The bits of `TypeFlags`. */
  datatype TypeFlag = Nilable | Anydata | PureType

  /** The type tags of `TypeTags` the modelled code compares with. */
  datatype TypeTag = RecordTag | ObjectTag | ServiceTag | TypedescTag | OtherTag(code: int)

  /** A record field (`BField`): its name, its flags and its type. */
  datatype Field = Field(name: string, flags: set<Flag>, fieldType: TypeRef)

  /** What a record type adds (`BRecordType`). `readonly` is fixed by the constructor. */
  datatype RecordInfo = RecordInfo(flags: set<Flag>, fields: seq<Field>,
                                   restFieldType: Option<TypeRef>, sealed: bool,
                                   typeFlags: set<TypeFlag>, readonly: bool,
                                   immutableType: Option<TypeRef>)

  /** A method of an object type, which carries annotations of its own. */
  datatype AttachedFunction = AttachedFunction(funcName: string, annotationKey: string,
                                               annotations: AnnotMap)

  /** The kinds of annotatable type the modelled code tells apart. Object and service types
      report their own annotation key; a record's key is its name. The other annotatable
      types (function types among them) carry a tag outside the record, object and service
      tags. */
  datatype Kind =
    | RecordKind(info: RecordInfo)
    | ObjectKind(isService: bool, objectKey: string, attachedFunctions: seq<AttachedFunction>)
    | OtherKind(otherTagCode: int, otherKey: string)

  /** A `BAnnotatableType`. */
  datatype AnnotatableType = AnnotatableType(typeName: string, pkg: Option<ModuleId>,
                                             kind: Kind, annotations: AnnotMap)

  /** A `BTypedescType`; `ref` is the object's identity and `constraint` may be null. */
  datatype TypedescType = TypedescType(ref: nat, typeName: string, pkg: Option<ModuleId>,
                                       constraint: Option<TypeRef>)

  /** Any type descriptor `processAnnotations` can be given. */
  datatype Type =
    | Annotatable(a: AnnotatableType)
    | Typedesc(td: TypedescType)
    | Plain(plainName: string, plainTag: TypeTag)

  function Tag(t: AnnotatableType): (r: TypeTag) {
    match t.kind
    case RecordKind(_) => RecordTag
    case ObjectKind(isService, _, _) => if isService then ServiceTag else ObjectTag
    case OtherKind(code, _) => OtherTag(code)
  }

  function AnnotationKey(t: AnnotatableType): (r: string) {
    match t.kind
    case RecordKind(_) => t.typeName
    case ObjectKind(_, key, _) => key
    case OtherKind(_, key) => key
  }

  /** The methods of an object type; other types have none. */
  function AttachedFunctions(t: AnnotatableType): seq<AttachedFunction> {
    if t.kind.ObjectKind? then t.kind.attachedFunctions else []
  }

  /** What `Map.get` answers: the value under `key`, or null. */
  function Lookup(m: AnnotMap, key: BString): (r: Value) {
    if key in m then m[key] else Nil
  }

  /** A freshly built annotatable type: its annotation map starts empty. */
  function NewAnnotatable(typeName: string, pkg: Option<ModuleId>, kind: Kind): (r: AnnotatableType)
    ensures forall key :: GetAnnotation(r, key) == Nil
    ensures r.typeName == typeName && r.pkg == pkg && r.kind == kind
  {
    AnnotatableType(typeName, pkg, kind, map[])
  }

  /** `setAnnotations`: the whole map is replaced, so every later lookup reads the new map;
      the type's name, key and tag stay as they were. */
  function SetAnnotations(t: AnnotatableType, annotations: AnnotMap): (r: AnnotatableType)
    ensures forall key :: GetAnnotation(r, key) == Lookup(annotations, key)
    ensures r.typeName == t.typeName && r.pkg == t.pkg && r.kind == t.kind
    ensures AnnotationKey(r) == AnnotationKey(t) && Tag(r) == Tag(t)
  {
    t.(annotations := annotations)
  }

  function GetAnnotation(t: AnnotatableType, key: BString): (r: Value) {
    Lookup(t.annotations, key)
  }

  /** The key an annotation `name` of package `pkg` is stored under. */
  function QualifiedKey(pkg: string, name: string): (r: BString) {
    BString(pkg + ":" + name)
  }

  /** `getAnnotation(pkg, name)` is the lookup of the key `pkg:name`. */
  function GetQualifiedAnnotation(t: AnnotatableType, pkg: string, name: string): (r: Value)
    ensures r == GetAnnotation(t, QualifiedKey(pkg, name))
    ensures QualifiedKey(pkg, name) !in t.annotations ==> r == Nil
  {
    Lookup(t.annotations, QualifiedKey(pkg, name))
  }

  /** Looking up a key that is absent yields null. */
  lemma AbsentKeyYieldsNil(t: AnnotatableType, key: BString)
    requires key !in t.annotations
    ensures GetAnnotation(t, key) == Nil
  {
  }

  /** The last map set is the one read: setting twice is setting the second map. */
  lemma SetAnnotationsLastWins(t: AnnotatableType, first: AnnotMap, second: AnnotMap)
    ensures SetAnnotations(SetAnnotations(t, first), second) == SetAnnotations(t, second)
  {
  }

  /** When the package name holds no colon, the key `pkg:name` determines both parts. */
  lemma {:induction false} QualifiedKeyInjective(p1: string, n1: string, p2: string, n2: string)
    requires ':' !in p1 && ':' !in p2
    requires QualifiedKey(p1, n1) == QualifiedKey(p2, n2)
    ensures p1 == p2 && n1 == n2
  {
    var k := p1 + ":" + n1;
    if |p1| != |p2| {
      KeyLayout(p1, n1);
      KeyLayout(p2, n2);
      assert false;
    }
    assert p1 == k[..|p1|] == p2;
    assert n1 == k[|p1| + 1..] == n2;
  }

  /** Where the colon sits in a qualified key. */
  lemma KeyLayout(pkg: string, name: string)
    ensures QualifiedKey(pkg, name).chars[|pkg|] == ':'
    ensures forall i :: 0 <= i < |pkg| ==> QualifiedKey(pkg, name).chars[i] == pkg[i]
  {
  }

  /** A colon inside the package name makes two different (package, name) pairs share a key. */
  lemma QualifiedKeyAmbiguousWithColon()
    ensures QualifiedKey("a:b", "c") == QualifiedKey("a", "b:c")
  {
    assert "a:b" + ":" + "c" == "a" + ":" + "b:c";
  }
}

=== FILE: value_creator.dfy ===
/** `BValueCreator`: building object values (with the strand's scheduling context saved
    and restored around the nested creation call), record values, XML sequences and
    function pointers. */
module BValueCreator {
  import opened Wrappers
  import opened RuntimeValues
  import opened Scheduling
  import opened Types
  import opened RecordTypes
  import opened FunctionPointers

  /** The arguments of the generated `ValueCreator.createObjectValue`: the type name, the
      scheduler (null without a strand), the strand and the interleaved field values. */
  datatype ObjectRequest = ObjectRequest(typeName: string, scheduler: Option<SchedulerRef>,
                                         strand: Option<Strand>, fields: seq<Value>)

  /** What the package's generated value creator does with a request: the object it creates
      or the failure it throws, and what it does to the strand it runs on. */
  datatype Creation = Creation(outcome: Result<Value, Throwable>, strandEffect: Strand -> Strand)

  /** An XML sequence value and its children. */
  datatype XmlSequence = XmlSequence(children: seq<Value>)

  /** `getStrand`: the strand bound to the calling thread. `lookup` is what
      `Scheduler.getStrand` returned or threw. An `Exception` is caught and becomes "no
      strand"; anything else that is thrown (an `Error`) passes through. */
  function GetStrand(lookup: Result<Option<Strand>, Throwable>): (r: Result<Option<Strand>, Throwable>)
    ensures lookup.Success? ==> r == lookup
    ensures lookup.Failure? && lookup.error.isException ==> r == Success(None)
    ensures lookup.Failure? && !lookup.error.isException ==> r == lookup
  {
    match lookup
    case Success(_) => lookup
    case Failure(e) => if e.isException then Success(None) else lookup
  }

  /** A lookup that threw an `Exception` is indistinguishable from a lookup that found no
      strand, so `CreateObjectValue`, whose contract depends on the lookup only through
      `GetStrand`, behaves alike on both; an `Error` is never mistaken for "no strand". */
  lemma CaughtLookupActsAsNoStrand(e: Throwable)
    ensures e.isException <==> GetStrand(Failure(e)) == GetStrand(Success(None))
    ensures !e.isException ==> GetStrand(Failure(e)) == Failure(e)
  {
  }

  /** Java's `int` arithmetic: a result wrapped to 32 bits, two's complement. */
  function Int32(x: int): (r: int)
    ensures -0x8000_0000 <= r < 0x8000_0000
    ensures (r - x) % 0x1_0000_0000 == 0
  {
    (x + 0x8000_0000) % 0x1_0000_0000 - 0x8000_0000
  }

  /** The length `fieldValues.length * 2` of the field array is negative, and the array
      allocation throws, exactly from 2^30 field values on; below that it is the true
      product. */
  lemma FieldArrayLengthOverflows(n: nat)
    requires n < 0x8000_0000
    ensures Int32(n * 2) < 0 <==> n >= 0x4000_0000
    ensures n < 0x4000_0000 ==> Int32(n * 2) == 2 * n
  {
  }

  /** The field array of `createObjectValue`: each field value followed by `true`. */
  method InterleaveFields(fieldValues: seq<Value>) returns (fields: seq<Value>)
    ensures |fields| == 2 * |fieldValues|
    ensures forall i :: 0 <= i < |fieldValues| ==>
              fields[2 * i] == fieldValues[i] && fields[2 * i + 1] == Boolean(true)
  {
    fields := [];
    var i := 0;
    while i < |fieldValues|
      invariant 0 <= i <= |fieldValues|
      invariant |fields| == 2 * i
      invariant forall j :: 0 <= j < i ==>
                  fields[2 * j] == fieldValues[j] && fields[2 * j + 1] == Boolean(true)
    {
      fields := fields + [fieldValues[i], Boolean(true)];
      i := i + 1;
    }
  }

  /** `createObjectValue`. An `Error` thrown by the strand lookup propagates before anything
      is built. A field array of negative length (from 2^30 field values on) makes the
      allocation throw, with no strand touched. Otherwise the nested creation call receives
      the interleaved fields. With a current strand it runs with that strand's scheduler,
      on the strand made runnable and not blocked on an extern; afterwards, whether it
      returned or threw, the strand's state and `blockedOnExtern` are back to their values
      before the call. Without a current strand the scheduler passed is null and no strand
      is touched. The outcome is the nested call's. `strandAfter` is the current strand
      after the call (`None` when there is none); `request` holds the nested call's
      arguments (`None` when the call is not made). */
  method CreateObjectValue(lookup: Result<Option<Strand>, Throwable>, creator: ObjectRequest -> Creation,
                           objectTypeName: string, fieldValues: seq<Value>)
    returns (outcome: Result<Value, Throwable>, strandAfter: Option<Strand>, request: Option<ObjectRequest>)
    requires |fieldValues| < 0x8000_0000
    ensures GetStrand(lookup).Failure? ==>
              outcome == Failure(lookup.error) && request.None? && strandAfter.None?
    ensures GetStrand(lookup).Success? ==> (request.None? <==> |fieldValues| >= 0x4000_0000)
    ensures GetStrand(lookup).Success? && request.None? ==>
              outcome == Failure(NegativeArraySize) && strandAfter == GetStrand(lookup).value
    ensures request.Some? ==>
              && request.value.typeName == objectTypeName
              && |request.value.fields| == 2 * |fieldValues|
              && (forall i :: 0 <= i < |fieldValues| ==>
                    request.value.fields[2 * i] == fieldValues[i]
                    && request.value.fields[2 * i + 1] == Boolean(true))
              && outcome == creator(request.value).outcome
    ensures request.Some? && GetStrand(lookup).value.None? ==>
              request.value.scheduler.None? && request.value.strand.None? && strandAfter.None?
    ensures request.Some? && GetStrand(lookup).value.Some? ==>
              var s := GetStrand(lookup).value.value;
              && request.value.scheduler == Some(s.scheduler)
              && request.value.strand == Some(PrepareNested(s))
              && strandAfter.Some?
              && strandAfter.value.state == s.state
              && strandAfter.value.blockedOnExtern == s.blockedOnExtern
              && strandAfter.value == Restore(creator(request.value).strandEffect(PrepareNested(s)), Save(s))
  {
    var lookedUp := GetStrand(lookup);
    if lookedUp.Failure? {
      return Failure(lookedUp.error), None, None;
    }
    var current := lookedUp.value;
    FieldArrayLengthOverflows(|fieldValues|);
    if Int32(|fieldValues| * 2) < 0 {
      return Failure(NegativeArraySize), current, None;
    }
    var fields := InterleaveFields(fieldValues);
    var scheduler: Option<SchedulerRef> := None;
    var saved := SavedContext(Runnable, false);
    var nestedStrand: Option<Strand> := None;
    if current.Some? {
      scheduler := Some(current.value.scheduler);
      saved := Save(current.value);
      nestedStrand := Some(PrepareNested(current.value));
    }
    var args := ObjectRequest(objectTypeName, scheduler, nestedStrand, fields);
    request := Some(args);
    var creation := creator(args);
    outcome := creation.outcome;
    // the `finally` block: runs on the normal and on the exceptional exit alike
    if nestedStrand.Some? {
      strandAfter := Some(Restore(creation.strandEffect(nestedStrand.value), saved));
    } else {
      strandAfter := None;
    }
  }

  /** A value `values[i]` is stored for field `f` unless `f` is optional and the value null. */
  predicate Stored(f: Field, v: Value) {
    !(IsOptional(f) && v == Nil)
  }

  /** The keys of the fields among the first `n` that were given a stored value. */
  function StoredKeys(fields: seq<Field>, values: seq<Value>, n: nat): set<BString>
    requires n <= |fields| && n <= |values|
  {
    set i | 0 <= i < n && Stored(fields[i], values[i]) :: FieldKey(fields[i])
  }

  /** The cast `(BRecordType) record.getType()` succeeds for record types only. */
  predicate IsRecordType(t: Type) {
    t.Annotatable? && t.a.kind.RecordKind?
  }

  /** `createRecordValue(record, values...)`: `recordMapType` is the given map's type. The
      cast to a record type throws for any other type. Otherwise the result is a fresh map
      in which the i-th declared field holds the i-th value, Java strings
      converted; a field is left out only when it is optional and its value is null. Fewer
      values than fields make the array access throw. The given record itself is not
      changed. The fields come from a map keyed by name, so their names are distinct. */
  method PopulateRecord(recordMapType: Type, values: seq<Value>)
    returns (r: Result<map<BString, Value>, Throwable>)
    requires IsRecordType(recordMapType) ==> DistinctFieldNames(recordMapType.a.kind.info.fields)
    ensures !IsRecordType(recordMapType) ==> r == Failure(ClassCast)
    ensures IsRecordType(recordMapType) ==>
              (|values| < |recordMapType.a.kind.info.fields| <==> r.Failure?)
    ensures IsRecordType(recordMapType) && r.Failure? ==> r.error == IndexOutOfBounds
    ensures r.Success? ==>
              var fields := recordMapType.a.kind.info.fields;
              && IsRecordType(recordMapType)
              && r.value.Keys == StoredKeys(fields, values, |fields|)
              && (forall i :: 0 <= i < |fields| ==>
                    (FieldKey(fields[i]) in r.value <==> Stored(fields[i], values[i])))
              && (forall i :: 0 <= i < |fields| && Stored(fields[i], values[i]) ==>
                    r.value[FieldKey(fields[i])] == ToRuntime(values[i]))
  {
    if !IsRecordType(recordMapType) {
      return Failure(ClassCast);
    }
    var fields := recordMapType.a.kind.info.fields;
    var m: map<BString, Value> := map[];
    var i := 0;
    while i < |fields|
      invariant 0 <= i <= |fields|
      invariant i <= |values|
      invariant m.Keys == StoredKeys(fields, values, i)
      invariant forall j :: 0 <= j < i && Stored(fields[j], values[j]) ==>
                  m[FieldKey(fields[j])] == ToRuntime(values[j])
    {
      if i >= |values| {
        return Failure(IndexOutOfBounds);
      }
      var value := values[i];
      if Stored(fields[i], value) {
        m := m[FieldKey(fields[i]) := ToRuntime(value)];
      }
      i := i + 1;
    }
    r := Success(m);
    forall j | 0 <= j < |fields|
      ensures FieldKey(fields[j]) in m <==> Stored(fields[j], values[j])
    {
      if FieldKey(fields[j]) in m {
        var k :| 0 <= k < |fields| && Stored(fields[k], values[k]) && FieldKey(fields[k]) == FieldKey(fields[j]);
        assert k == j by {
          // Two positions with the same key have the same name, which `DistinctFieldNames` forbids.
          assert fields[k].name == fields[j].name;
        }
      }
    }
  }

  /** `createRecordValue(packageId, recordTypeName, valueMap)`: `record` is the value the
      package's value creator made for the type name. Every entry of `valueMap` is put under
      its key as a runtime string, its value converted; the record's other entries stay. */
  method PopulateRecordFromMap(record: map<BString, Value>, valueMap: map<string, Value>)
    returns (r: map<BString, Value>)
    ensures forall k :: k in valueMap ==> BString(k) in r && r[BString(k)] == ToRuntime(valueMap[k])
    ensures forall key :: key in record && key.chars !in valueMap ==> key in r && r[key] == record[key]
    ensures forall key :: key in r ==> key in record || key.chars in valueMap
  {
    r := record;
    var remaining := valueMap.Keys;
    while remaining != {}
      invariant remaining <= valueMap.Keys
      invariant forall k :: k in valueMap && k !in remaining ==>
                  BString(k) in r && r[BString(k)] == ToRuntime(valueMap[k])
      invariant forall key :: key in record && key.chars !in valueMap ==> key in r && r[key] == record[key]
      invariant forall key :: key in r ==> key in record || key.chars in valueMap
      decreases remaining
    {
      var k :| k in remaining;
      r := r[BString(k) := ToRuntime(valueMap[k])];
      remaining := remaining - {k};
    }
  }

  /** The cast to an XML value succeeds for XML values and for null. */
  predicate CastsToXml(v: Value) {
    v.Xml? || v.Nil?
  }

  /** `createXMLSequence(ArrayValue)`: the children are the array's values, in order; a
      value that is not XML makes the cast throw. `values` is what `getValues` returned. */
  method CreateXmlSequence(values: seq<Value>) returns (r: Result<XmlSequence, Throwable>)
    ensures r.Success? <==> forall i :: 0 <= i < |values| ==> CastsToXml(values[i])
    ensures r.Success? ==> r.value.children == values
    ensures r.Failure? ==> r.error == ClassCast
  {
    var children: seq<Value> := [];
    var i := 0;
    while i < |values|
      invariant 0 <= i <= |values|
      invariant children == values[..i]
      invariant forall j :: 0 <= j < i ==> CastsToXml(values[j])
    {
      if !CastsToXml(values[i]) {
        return Failure(ClassCast);
      }
      children := children + [values[i]];
      i := i + 1;
    }
    return Success(XmlSequence(children));
  }

  /** `createFPValue`, with and without a strand name: never marked concurrent. */
  function CreateFPValue(target: FunctionRef, fpType: AnnotatableType, strandName: Option<string>): (r: FPValue)
    ensures r.target == target && r.fpType == fpType && r.strandName == strandName
    ensures !r.isConcurrent
  {
    FPValue(target, fpType, strandName, false)
  }
}

=== FILE: wrappers.dfy ===
/** Java's `null` and Java's exceptions, as values. */
module Wrappers {

  /** A reference that may be `null`. */
  datatype Option<+T> = None | Some(value: T) {

    /** The referenced value, or `default` when there is none. */
    function GetOr(default: T): T {
      match this
      case Some(v) => v
      case None => default
    }
  }

  /** A call that either returns a value or throws. */
  datatype Result<+T, +E> = Success(value: T) | Failure(error: E)
}
